=== FILE: README.md ===
# photo-face-thing: a Dafny model of the face-grouping pipeline

photo-face-thing finds faces in a folder of photos and groups the faces that
look alike. Its core, `core.py`, is a batch pipeline over one SQLite
database. The stages are:

1. **Analysis** (`analyse_images_in_blocks`). For up to 24 images at a time it
   records each image's hash, thumbnail, size and face count. Every detected
   face becomes a row of `faces`.
2. **Pair seeding** (`insert_empty_pairs`). It writes one `pairs` row for every
   2-combination of face ids. The distance is NULL and the row is not grouped.
3. **Distance engine** (`pair_faces_in_blocks`). It fills in up to 500 NULL
   distances at a time.
4. **Clustering** (`group_faces_in_blocks`). It folds up to 10 close pairs at a
   time (distance at most the threshold, 0.5 by default, not yet grouped)
   into groups. A fold either creates a group, lets one face join the other's
   group, does nothing, or merges two groups.
5. **Representatives** (`find_best_faces`). For each group it picks the face
   with the largest truncated integer percentage `100*w*h/width/height`.
   Faces under 1% of their image all score 0 and tie.

The model keeps the five tables as one immutable `Store` value:

- `images`, `faces` and `groups` are maps keyed by rowid;
- `pairs` is a map keyed by `(face1, face2)`, because of the unique index;
- `faces2groups` is a sequence of rows, because it has no key.

Each stage is a pure function from one store to the next. A chunked stage
also returns the `(processed, count)` pair that its Python function returns.

The modules are:

- `Store` holds the tables and SQLite's rowid rule.
- `Graph` is a reference definition of connectivity: walks over an undirected edge set.
- `Clustering` models the fold and one call of the grouping stage.
- `Pairs` models seeding and the distance engine.
- `Analysis` models building face rows and the analysis stage.
- `Representative` models the scoring query.
- `Driver` models the command-line loops that call a stage until it reports no work.

The main results:

- **Folding keeps the partition.** Every fold keeps `Clustered`: each face has
  at most one membership row, the `groups` table holds exactly the groups
  that have members, and two faces share a group exactly when a walk of
  folded pairs joins them.
- **The outcome does not depend on order.** The groups depend only on the set
  of folded pairs. They do not depend on the order of the chunk or on which
  group survives a merge.
- **The whole loop groups by components.** After grouping runs to
  completion, the groups are the connected components of the previously
  folded pairs plus the close pairs. When every previously folded pair is
  close, they are the components of the close pairs alone. That is the case
  on a fresh database run through all three stages with one threshold
  (`Driver.FreshPipeline`).
- **Grouping never edits group rows.** Grouping only creates and deletes
  `groups` rows, so a name and a best face survive it for as long as their
  row does. A created row has neither. Only choosing representatives
  writes `best_face` into existing rows. The `groups` table has no
  AUTOINCREMENT, so a new group gets one above the largest remaining id.
  A deleted largest id therefore comes back when the id just below it is
  still present. Under that condition, a named group absorbed in a merge
  can see its id come back as a new group without a name.

## Model

| member | source | states |
|---|---|---|
| Store.NextRowId | core.py:238-239 | A row inserted without an id gets an id above every existing one. On an empty table that id is 1. |
| Store.DeletedLargestReused | core.py:238-239 | The next id is one above the largest remaining id. So after the row with the largest id is deleted, the next insert gets that same id again when the id just below it is still present, or when it was the only row and had id 1. |
| Clustering.GroupOf | core.py:212-213 | A face has no group exactly when no membership row names it. A group that is found comes from a row of that face. |
| Clustering.Touching | core.py:212-213 | The lookup returns exactly the membership rows of `face1` or `face2`. |
| Clustering.Classify | core.py:214-241 | A new group is created exactly when the lookup returned no rows. |
| Clustering.Repoint | core.py:219-220 | The merge update keeps every row's face and order. It moves exactly the rows of absorbed groups to the survivor. |
| Clustering.Survivor | core.py:214-220 | The merge survivor is one of the groups the lookup found. |
| Clustering.MarkGrouped | core.py:242 | Only the named pair's `grouped` flag is set. Its distance and every other row of every table are unchanged. A key with no row changes nothing. |
| Clustering.Fold | core.py:214-241 | The branch chain writes only memberships and groups: images, faces and pairs are unchanged. Every group row afterwards is an earlier row with its values, or a new row with no name and no best face. What each branch does is stated by FoldCreatesGroup, FoldJoinsGroup, FoldKeepsSharedGroup and FoldMergesGroups. |
| Clustering.FoldPair | core.py:211-242 | One iteration changes no image, face or distance. Among the `grouped` flags it sets only the folded pair's. |
| Clustering.FoldCreatesGroup | core.py:236-241 | Two ungrouped faces get one new group, with a fresh id and a NULL name. It contains exactly those two faces. Every other face keeps its group, and every existing group row keeps its name and best face. |
| Clustering.FoldJoinsGroup | core.py:226-232 | When exactly one face has a group, the other face joins that group. Nothing else changes. |
| Clustering.FoldKeepsSharedGroup | core.py:223-225 | When both faces already share a group, memberships and groups are unchanged. |
| Clustering.FoldMergesGroups | core.py:215-222 | Two groups merge into the survivor: members of the absorbed group are re-pointed, its row is deleted, and the faces with memberships and the row count stay the same. |
| Clustering.UnexpectedBranchUnreachable | core.py:233-235 | The "shouldn't happen" branch cannot be taken, for any membership table. |
| Clustering.FoldUnites | core.py:211-242 | A fold keeps the partition invariant. Afterwards two faces share a group exactly when they did before, or when each was in the group of `face1` or of `face2`. |
| Clustering.FoldJoinsPair | core.py:211-242 | After a fold both faces share a group, and no two faces that shared a group are separated. |
| Clustering.FoldedEdgesAfterFold | core.py:242 | Each fold adds exactly its pair to the folded pairs. |
| Clustering.FoldKeepsComponents | core.py:211-243 | If groups are the components of the folded pairs before a fold, they still are afterwards. |
| Clustering.FoldKeepsGroupRows | core.py:215-241 | Whatever the branch, every group row left after a fold has its earlier name and best face, or is a new row with neither. |
| Clustering.FoldPairsKeepGroupRows | core.py:211-243 | The loop over a chunk leaves every group row either unchanged or new with no name and no best face. |
| Clustering.FoldPairs | core.py:211-243 | The loop over a chunk leaves images and faces alone and keeps the pair keys. A `grouped` flag once set stays set, and every pair of the chunk ends up marked. |
| Clustering.FoldPairsTables | core.py:211-243 | The loop over a chunk writes only the chunk's `grouped` flags plus memberships and groups. |
| Clustering.FoldPairsKeepComponents | core.py:211-243 | The loop over a chunk keeps groups equal to the components of the folded pairs. |
| Clustering.IsCandidate | core.py:206 | A pair with a NULL distance never qualifies, since a comparison with NULL is not true. A pair already grouped never qualifies. |
| Clustering.Candidates | core.py:206-209 | The candidates are pair rows. None of them has been folded yet, and none has a NULL distance. |
| Clustering.GroupFacesInBlocks | core.py:202-244 | Returns (0, 0) and changes nothing when there are no candidates. Otherwise it returns (chunk size, candidate count before) and folds between 1 and 10 pairs. The candidate count drops by the number folded. Only the chunk's flags change, and the partition is kept. Every group row is either an earlier row with its name and best face unchanged, or a new row with neither. |
| Clustering.NothingFoldedYet | core.py:53-54 | A store with empty `groups` and `faces2groups` and no grouped or self pair satisfies the invariant. |
| Clustering.FoldOrderIrrelevant | core.py:209-243 | Two chunks with the same pairs in any order, with any merge survivors, produce the same "shares a group" relation. |
| Clustering.BridgingChunk | core.py:206-210 | In the three-face example, the candidates are exactly the two close pairs. |
| Clustering.TransitiveBridging | core.py:202-244 | Faces 1-2 at 0.3 and 2-3 at 0.4 end up in one group with 1 and 3, although the 1-3 pair at 0.9 is never folded. |
| Pairs.Combinations | core.py:157-158 | `itertools.combinations` yields n(n-1)/2 pairs. |
| Pairs.CombinationsMembers | core.py:157-158 | A pair is produced exactly when its first id comes before its second in the id list. |
| Pairs.CombinationsAreFacePairs | core.py:155-158 | Every combination pairs two distinct faces. Every two distinct faces appear in some orientation. |
| Pairs.InsertEmptyPairs | core.py:152-162 | Existing rows are kept unchanged. New rows have a NULL distance, are not grouped, and join two distinct existing faces. Every two distinct faces have a row. |
| Pairs.SeedingIsIdempotent | core.py:152-162 | Seeding twice gives the same store as seeding once, because of `INSERT OR IGNORE` on the unique index. |
| Pairs.SeedingIsCanonical | core.py:155-158 | With ids in ascending order and stored pairs smaller id first, each unordered pair of distinct faces has exactly one row, smaller id first. |
| Pairs.Unmeasured | core.py:167 | The unmeasured pairs are pair rows, and a pair with a distance is never among them. |
| Pairs.Measurable | core.py:171-174 | The inner joins return only unmeasured pairs. When every pair's faces exist, they return all of them. |
| Pairs.Measure | core.py:180-182 | The stored distance is the metric of the two faces' encodings. Under a metric that puts each encoding at 0 from itself, two faces with the same encoding get distance 0. |
| Pairs.PairFacesInBlocks | core.py:164-186 | Returns (0, 0) unchanged when nothing is unmeasured. Otherwise it returns (chunk size, unmeasured count before) and sets exactly the chunk's distances to the metric of the two encodings. The unmeasured count drops by the number processed, which is positive when every pair's faces exist. |
| Analysis.BoxOf | core.py:139-142 | The box's x is the location's left and its y is the top. x + w is the right and y + h is the bottom. |
| Analysis.LocationOf | core.py:139-142 | Recovers a location's corners from a stored box. |
| Analysis.BoxRoundTrip | core.py:139-142 | Location to box and box to location are inverses. |
| Analysis.FacesOf | core.py:133-143 | An image's face rows are the zip of its locations and encodings: as many as the shorter list, row i built from location i and encoding i. |
| Analysis.NewFaces | core.py:130-143 | Every face row built for a chunk belongs to an image of the chunk. |
| Analysis.InsertAt | core.py:146-148 | Rows inserted at consecutive ids add exactly those ids, keep old rows, and put row i at id n + i. |
| Analysis.InsertFaces | core.py:146-148 | The batch insert puts row i at id NextRowId + i. It adds exactly those ids, keeps every old row, and grows the table by the number of rows. |
| Analysis.InsertOneByOne | core.py:146-148 | The batch insert equals inserting the first row at the next rowid and then the rest. |
| Analysis.Pending | core.py:119 | The pending images are image rows. While every face belongs to an analysed image, no face belongs to a pending one. |
| Analysis.Analysed | core.py:131-132 | The updated image row keeps its path and filename, gets a hash and so leaves the pending set, and records `facecount` as the number of encodings. |
| Analysis.Analyse | core.py:128-148 | One chunk changes only the image and face tables. The set of images stays the same, and every chunk image gets a hash. |
| Analysis.AnalyseImages | core.py:119-123 | Analysing a chunk removes exactly the chunk from the pending images. |
| Analysis.AnalyseFaces | core.py:134-148 | Each new face row belongs to an image of the chunk and has an id above every old face id. |
| Analysis.AnalyseRows | core.py:144-145 | Analysed images record md5, thumbnail, size and `facecount` = number of encodings. Other images, paths, pairs, groups and memberships are unchanged. |
| Analysis.AnalyseKeepsIndex | core.py:128-149 | If every face belongs to an analysed image before, that still holds afterwards. |
| Analysis.AnalyseImagesInBlocks | core.py:112-150 | Returns (0, 0) unchanged when no image is pending. Otherwise it returns (chunk size, pending count minus chunk size), and the second number equals the pending count afterwards. |
| Analysis.CountForChunk | core.py:130-143 | A chunk image contributes as many face rows as the shorter of its locations and encodings. An image outside the chunk contributes none. |
| Analysis.InsertCounts | core.py:146-148 | Inserting rows adds to each image's face count exactly the rows that belong to it. |
| Analysis.FaceCountMatchesRows | core.py:130-148 | When the detector returns as many encodings as locations, an analysed image's `facecount` equals its number of face rows. |
| Representative.TruncDiv | core.py:249 | SQLite's integer division rounds toward zero: the quotient's magnitude is the floor of the magnitudes' ratio, and its sign follows the operands' signs. |
| Representative.TruncDivOdd | core.py:249 | Negating the dividend negates the quotient. |
| Representative.Score | core.py:249 | The score is NULL exactly when the image's width or height is NULL or zero. |
| Representative.ScoreIsPercent | core.py:249 | A face box inside its image scores between 0 and 100. |
| Representative.Entrants | core.py:249-251 | The join's rows for a group are exactly its membership rows whose face and image exist, each with that face's score. |
| Representative.Best | core.py:249 | `max` with its bare column gives an entrant that no other entrant beats, NULL being lowest. It is the first such entrant. |
| Representative.Joinable | core.py:249-251 | A face passes the inner joins only if it exists. When every face points at an existing image, every existing face passes. |
| Representative.Crowned | core.py:253-254 | The update keeps the group's name. A group the join reaches gets a best face. If the row changes, its new best face is one of the group's joinable members. |
| Representative.FindBestFaces | core.py:246-255 | Only `best_face` of groups changes. Names and the set of groups stay. A group's row changes only if the join reaches it. |
| Representative.BestFaceScoresHighest | core.py:249-254 | A group with a joinable member gets a best face. That face is one of its joinable members and no member scores higher. |
| Representative.BestFaceIsMember | core.py:249-251 | Under the one-group-per-face invariant, a group's best face belongs to that group. |
| Representative.FindBestFacesIdempotent | core.py:246-255 | Choosing representatives twice gives the same result as once. |
| Representative.FindBestFacesKeepsClusters | core.py:253-254 | Choosing representatives keeps the clustering invariant. |
| Representative.TinyFaceScoresZero | core.py:249 | A face covering less than 1% of its image scores 0, because each division truncates. |
| Representative.SmallFacesTie | core.py:249-254 | On a 4000x3000 image a 100x100 and a 200x200 face both score 0, and the first membership row, the smaller face, is chosen. |
| Representative.LargerFaceWins | core.py:249-254 | Of a 10x20 and a 20x40 face on a 100x100 image (scores 2 and 8), the larger one is chosen. |
| Driver.PickChunk | core.py:209-210 | A `limit` query returns distinct rows of the matching set, as many as the limit allows. |
| Driver.AnalyseAll | llcli.py:31-35 | Repeating the analysis stage until it processes nothing leaves no pending image. Faces stay indexed by analysed images. |
| Driver.PairAll | llcli.py:38-43 | Seeding and then measuring until nothing is processed leaves every pair measured. Every two distinct faces have a row, and no new row is grouped. A distance set before is kept, and every distance the loop set equals the metric of the pair's two faces. |
| Driver.MeasuringStep | core.py:164-186 | One call of the distance engine keeps every distance set earlier and sets each new one to the metric of the pair's faces. |
| Driver.GroupAll | llcli.py:46-50 | Grouping until nothing is processed folds every close pair, in at most one call per candidate. The groups end up as the components of the previously folded plus close pairs, whatever chunks and survivors occurred. When every previously folded pair is close, they are the components of the close pairs. Every group row is either an earlier row with its values unchanged, or a new row with no name and no best face. |
| Driver.FreshPairs | llcli.py:15-43 | From a database holding only image rows, analysing and pairing leave every image analysed, every two distinct faces paired and measured, and nothing folded, which satisfies the clustering invariant. |
| Driver.FreshPipeline | llcli.py:15-50 | From a database holding only image rows, the three stages with one threshold end with every image analysed, every pair measured and no candidate left. Two faces then share a group exactly when a walk of close pairs joins them, whatever chunks the database returned and whichever group survived each merge. |
| Driver.GroupingStep | core.py:202-244 | A call that folds something strictly shrinks the candidates and keeps the loop invariant. A call that folds nothing leaves no candidate. |

## Left out

- Database plumbing (`get_data_file`, `get_db`, `init` and its overwrite check) is not modelled. The tables are in-memory values. Only the schema's keys and unique index shape the model.
- `load_from_folder`, `get_md5`, `create_thumbnail` and `load_single` are not modelled. They are filesystem, hashing and GNOME thumbnailer I/O. Their combined result per image is the `Loader` function parameter.
- The face detector, PIL image sizes and the `multiprocessing.Pool` fan-out are external calls and parallelism. They sit behind the same `Loader` parameter.
- The numpy Euclidean distance and the a85 serialisation of encodings are floating point and opaque bytes. Encodings are stored as `seq<real>`. The distance is the `Metric` function parameter, and decoding is assumed to invert encoding.
- `random_name`, `simple_gallery`, `get_groups_and_faces` and `update_groupname` are not modelled. The first is random and unused, the second produces HTML output, and the last two are trivial queries.
- The GTK interface is not modelled. Nor is the command-line argument handling; only its three stage loops are, in `Driver`.
- Clustering.Survivor: `group_faces_in_blocks` keeps `groups[0]` of a Python set, whose order is unspecified. The model takes any `Chooser` function. If the chooser names a group that was not found, it falls back to the first found row's group, so every survivor `group_faces_in_blocks` could pick is covered.
- Analysis.AnalyseImagesInBlocks: the `Loader` is assumed never to fail. `load_single` raises on an unreadable image, through `load_image_file` or `Image.open`. `pool.map` then re-raises the error, so the call ends with nothing committed.
- Driver.AnalyseAll: "no image is left pending" holds only because the `Loader` never fails. In `llcli.py`, an unreadable image ends the command-line loop with that image still pending, and every later run picks it again.
- Pairs.PairFacesInBlocks: the `Metric` is assumed never to fail. `np.linalg.norm` of the difference raises on encodings of different lengths, and the call then ends with nothing committed.
- Store.NextRowId: SQLite's rowid ceiling of 2^63-1 is not modelled. At that ceiling SQLite picks a random unused rowid instead of max + 1.
- Representative.Best: when every score of a group is NULL, SQLite reports the bare `f.id` from an arbitrary row. The model takes the group's first joinable membership row. On ties it takes the first maximal row in membership order, whereas SQLite's row order depends on its query plan.
- Representative.Score: SQLite switches 64-bit integer overflow in `100 * w * h` to floating point. The model uses unbounded integers.
- The query's row order is not modelled. `LIMIT` queries without `ORDER BY` are modelled by any chunk meeting the query's contract (`IsGroupingChunk`, `IsDistanceChunk`, `IsAnalysisChunk`).
- Pairs.SeedingIsCanonical: "exactly one row per unordered pair" is proved only for ids in ascending order, which is SQLite's rowid scan order for `select id from faces`. With ids in another order, a later seeding run could add the reverse orientation of an existing pair.
- Pairs.PairFacesInBlocks: `pair_faces_in_blocks` returns the unmeasured count from before the call, unlike the analysis stage, which returns the count remaining. The model keeps this difference.
- Pair rows whose faces no longer exist would be counted but never measured, and the command-line loop would then stop early. No stage deletes faces, so `PairsHaveFaces` holds throughout the pipeline.

=== FILE: analysis.dfy ===
/** The image analysis stage (`analyse_images_in_blocks`).

    Each call takes a chunk of images whose `md5` is still NULL. It runs the
    detector on each and records the results: the image row gets its hash,
    thumbnail, face count and size, and each detected face becomes a new row
    of `faces`. The detector, hashing, thumbnailing and image decoding run
    outside the database. Here they are one function parameter from an
    image's path to what `load_single` returns.
 */
module Analysis {
  import opened Store

  /** `chunk_size` of `analyse_images_in_blocks`. */
  const AnalysisChunkSize := 24

  /** A face location as the detector reports it: `(top, right, bottom, left)`. */
  datatype Location = Location(top: int, right: int, bottom: int, left: int)

  /** What analysing one image yields: `load_single`'s tuple without the id. */
  datatype Loaded = Loaded(
    locations: seq<Location>,
    encodings: seq<Encoding>,
    md5: string,
    thumbnail: string,
    width: int,
    height: int)

  /** Runs the detector, hash, thumbnailer and image decoder on a path. */
  type Loader = string -> Loaded

  // ---------------------------------------------------------------------
  // Building face rows
  // ---------------------------------------------------------------------

  /** The stored box of a detected location: its top-left corner and size. */
  function BoxOf(loc: Location): (b: Box)
    ensures b.x == loc.left && b.y == loc.top
    ensures b.x + b.w == loc.right && b.y + b.h == loc.bottom
  {
    Box(loc.left, loc.top, loc.right - loc.left, loc.bottom - loc.top)
  }

  /** The detector location a stored box came from. */
  function LocationOf(b: Box): (loc: Location)
    ensures loc.left == b.x && loc.top == b.y
    ensures loc.right - loc.left == b.w && loc.bottom - loc.top == b.h
  {
    Location(b.y, b.x + b.w, b.y + b.h, b.x)
  }

  /** No information is lost between a location and its box, either way. */
  lemma BoxRoundTrip(loc: Location, b: Box)
    ensures LocationOf(BoxOf(loc)) == loc
    ensures BoxOf(LocationOf(b)) == b
  {
  }

  /** The face rows of one image: `zip(locations, encodings)`, which stops at
      the shorter list. With no encodings there are no rows. */
  function FacesOf(image: ImageId, locations: seq<Location>, encodings: seq<Encoding>): (fs: seq<Face>)
    ensures |fs| == Min(|locations|, |encodings|)
    ensures forall i :: 0 <= i < |fs| ==>
              fs[i] == Face(image, BoxOf(locations[i]), encodings[i])
  {
    if |locations| == 0 || |encodings| == 0 then []
    else [Face(image, BoxOf(locations[0]), encodings[0])]
         + FacesOf(image, locations[1..], encodings[1..])
  }

  function LoadImage(images: map<ImageId, Image>, id: ImageId, load: Loader): Loaded
    requires id in images
  {
    load(images[id].fullPath)
  }

  /** The face rows of a whole chunk, image after image. */
  function NewFaces(images: map<ImageId, Image>, chunk: seq<ImageId>, load: Loader): (fs: seq<Face>)
    requires forall i :: 0 <= i < |chunk| ==> chunk[i] in images
    ensures forall j :: 0 <= j < |fs| ==> fs[j].image in chunk
  {
    if |chunk| == 0 then []
    else
      var l := LoadImage(images, chunk[0], load);
      FacesOf(chunk[0], l.locations, l.encodings) + NewFaces(images, chunk[1..], load)
  }

  /** `rows` stored at the consecutive ids `n`, `n + 1`, ... above every
      existing id. */
  function InsertAt(faces: map<FaceId, Face>, n: FaceId, rows: seq<Face>): (r: map<FaceId, Face>)
    requires forall f :: f in faces ==> f < n
    ensures Inserted(faces, n, rows, r)
    decreases |rows|
  {
    if |rows| == 0 then faces
    else
      var r := InsertAt(faces[n := rows[0]], n + 1, rows[1..]);
      InsertedStep(faces, n, rows, r);
      r
  }

  /** `r` is `faces` with `rows` added at the ids `n`, `n + 1`, ...: it has
      exactly those ids besides the old ones, keeps every old row, holds
      row `i` at id `n + i`, and grows by the number of rows. */
  ghost predicate Inserted(faces: map<FaceId, Face>, n: FaceId, rows: seq<Face>, r: map<FaceId, Face>)
  {
    && (forall f :: f in r <==> f in faces || n <= f < n + |rows|)
    && (forall f :: f in faces ==> f in r && r[f] == faces[f])
    && (forall f :: n <= f < n + |rows| ==> f in r && r[f] == rows[f - n])
    && |r| == |faces| + |rows|
  }

  /** Inserting the first row and then the rest is inserting them all. */
  lemma InsertedStep(faces: map<FaceId, Face>, n: FaceId, rows: seq<Face>, r: map<FaceId, Face>)
    requires forall f :: f in faces ==> f < n
    requires |rows| > 0 && Inserted(faces[n := rows[0]], n + 1, rows[1..], r)
    ensures Inserted(faces, n, rows, r)
  {
    assert n !in faces;
    assert r[n] == rows[0];
    forall f | n + 1 <= f < n + |rows|
      ensures r[f] == rows[f - n]
    {
      assert r[f] == rows[1..][f - (n + 1)];
    }
  }

  /** `executemany` of an insert with a NULL integer primary key: the rows
      get consecutive ids starting at the table's next rowid. */
  function InsertFaces(faces: map<FaceId, Face>, rows: seq<Face>): (r: map<FaceId, Face>)
    ensures Inserted(faces, NextRowId(faces.Keys), rows, r)
  {
    InsertAt(faces, NextRowId(faces.Keys), rows)
  }

  /** The batch insert is the same as inserting the rows one at a time,
      each at the next rowid of the table as it then stands. */
  lemma InsertOneByOne(faces: map<FaceId, Face>, rows: seq<Face>)
    requires |rows| > 0
    ensures InsertFaces(faces, rows)
         == InsertFaces(faces[NextRowId(faces.Keys) := rows[0]], rows[1..])
  {
    var n := NextRowId(faces.Keys);
    NextAfterInsert(faces.Keys, n);
    assert faces[n := rows[0]].Keys == faces.Keys + {n};
  }

  lemma NextAfterInsert(ids: set<int>, n: int)
    requires n == NextRowId(ids)
    ensures NextRowId(ids + {n}) == n + 1
  {
    var m := NextRowId(ids + {n});
    assert m - 1 in ids + {n};
  }

  // ---------------------------------------------------------------------
  // The stage
  // ---------------------------------------------------------------------

  /** `md5 is null`: the images not analysed yet. While every face belongs
      to an analysed image, no face belongs to a pending one. */
  function Pending(s: Store): (p: set<ImageId>)
    ensures p <= s.images.Keys
    ensures FacesIndexed(s) ==> forall f :: f in s.faces ==> s.faces[f].image !in p
  {
    set id | id in s.images && s.images[id].md5.None?
  }

  /** What the `limit` query may return: distinct pending images, as many as
      the chunk size allows. */
  ghost predicate IsAnalysisChunk(s: Store, chunk: seq<ImageId>)
  {
    && Distinct(chunk)
    && (forall i :: 0 <= i < |chunk| ==> chunk[i] in Pending(s))
    && |chunk| == Min(AnalysisChunkSize, |Pending(s)|)
  }

  /** Every face row belongs to an image that has been analysed. Faces are
      only created by analysing their image, so the stage keeps this. */
  ghost predicate FacesIndexed(s: Store)
  {
    forall f :: f in s.faces ==>
      s.faces[f].image in s.images && s.images[s.faces[f].image].md5.Some?
  }

  /** The ids of the face rows of one image. */
  function OfImage(faces: map<FaceId, Face>, id: ImageId): set<FaceId>
  {
    set f | f in faces && faces[f].image == id
  }

  /** The image row after analysis. Only the five analysis columns change,
      the hash leaves the row no longer pending, and the face count is the
      number of encodings. */
  function Analysed(img: Image, l: Loaded): (a: Image)
    ensures a.fullPath == img.fullPath && a.filename == img.filename
    ensures a.md5.Some?
    ensures a.faceCount == Some(|l.encodings|)
  {
    img.(md5 := Some(l.md5), thumbnail := Some(l.thumbnail),
         faceCount := Some(|l.encodings|),
         width := Some(l.width), height := Some(l.height))
  }

  /** The store after one chunk: the image updates, then the face inserts.
      Only the image and face tables change, and every chunk image gets a
      hash. `AnalyseRows` and `AnalyseFaces` say what else is kept. */
  function Analyse(s: Store, chunk: seq<ImageId>, load: Loader): (r: Store)
    requires forall i :: 0 <= i < |chunk| ==> chunk[i] in s.images
    ensures r == s.(images := r.images, faces := r.faces)
    ensures r.images.Keys == s.images.Keys
    ensures forall id :: id in chunk ==> r.images[id].md5.Some?
  {
    s.(images := map id | id in s.images ::
                   if id in chunk then Analysed(s.images[id], LoadImage(s.images, id, load))
                   else s.images[id],
       faces := InsertFaces(s.faces, NewFaces(s.images, chunk, load)))
  }

  lemma AnalyseImages(s: Store, chunk: seq<ImageId>, load: Loader)
    requires IsAnalysisChunk(s, chunk)
    ensures var a := Analyse(s, chunk, load);
            && Pending(a) == Pending(s) - set id | id in chunk
            && |Pending(a)| == |Pending(s)| - |chunk|
  {
    AnalyseRows(s, chunk, load);
    PendingShrinks(s, Analyse(s, chunk, load), chunk);
    RemoveDistinct(Pending(s), chunk);
  }

  /** Recording a hash for exactly the chunk's images takes exactly them
      off the pending list. */
  lemma PendingShrinks(s: Store, a: Store, chunk: seq<ImageId>)
    requires a.images.Keys == s.images.Keys
    requires forall id :: id in s.images && id !in chunk ==> a.images[id] == s.images[id]
    requires forall id :: id in chunk ==> id in s.images && a.images[id].md5.Some?
    ensures Pending(a) == Pending(s) - set id | id in chunk
  {
    forall id | id in s.images
      ensures id in Pending(a) <==> id in Pending(s) && id !in chunk
    {
      if id !in chunk {
        assert a.images[id] == s.images[id];
      }
    }
  }

  lemma AnalyseFaces(s: Store, chunk: seq<ImageId>, load: Loader)
    requires forall i :: 0 <= i < |chunk| ==> chunk[i] in s.images
    ensures var a := Analyse(s, chunk, load);
            forall f :: f in a.faces && f !in s.faces ==>
              && a.faces[f].image in chunk
              && forall g :: g in s.faces ==> g < f
  {
    var a := Analyse(s, chunk, load);
    var rows := NewFaces(s.images, chunk, load);
    assert a.faces == InsertFaces(s.faces, rows);
    forall f | f in a.faces && f !in s.faces
      ensures a.faces[f].image in chunk
    {
      assert a.faces[f] == rows[f - NextRowId(s.faces.Keys)];
    }
  }

  lemma AnalyseKeepsIndex(s: Store, chunk: seq<ImageId>, load: Loader)
    requires forall i :: 0 <= i < |chunk| ==> chunk[i] in s.images
    ensures FacesIndexed(s) ==> FacesIndexed(Analyse(s, chunk, load))
  {
    AnalyseFaces(s, chunk, load);
  }

  /** The image rows after one chunk: the analysed ones record the
      detector's results and keep their path; the rest are untouched. */
  lemma AnalyseRows(s: Store, chunk: seq<ImageId>, load: Loader)
    requires forall i :: 0 <= i < |chunk| ==> chunk[i] in s.images
    ensures var a := Analyse(s, chunk, load);
            && a.pairs == s.pairs && a.groups == s.groups && a.members == s.members
            && a.images.Keys == s.images.Keys
            && (forall id :: id in s.images ==>
                  && a.images[id].fullPath == s.images[id].fullPath
                  && a.images[id].filename == s.images[id].filename)
            && (forall id :: id in s.images && id !in chunk ==> a.images[id] == s.images[id])
            && (forall id :: id in chunk ==>
                  && id in s.images
                  && var l := LoadImage(s.images, id, load);
                  && a.images[id].md5 == Some(l.md5)
                  && a.images[id].thumbnail == Some(l.thumbnail)
                  && a.images[id].faceCount == Some(|l.encodings|)
                  && a.images[id].width == Some(l.width)
                  && a.images[id].height == Some(l.height))
            && (forall f :: f in s.faces ==> f in a.faces && a.faces[f] == s.faces[f])
            && |a.faces| >= |s.faces|
  {
  }

  /** `analyse_images_in_blocks`: returns the number of images analysed and
      the number still pending, or (0, 0) with nothing changed when none is
      pending. */
  function AnalyseImagesInBlocks(s: Store, chunk: seq<ImageId>, load: Loader): (r: Round)
    requires IsAnalysisChunk(s, chunk)
    ensures |Pending(s)| == 0 ==> r == Round(s, 0, 0)
    ensures |Pending(s)| > 0 ==> r.processed == |chunk| > 0
    ensures 0 <= r.processed <= AnalysisChunkSize
    ensures r.count == |Pending(s)| - r.processed == |Pending(r.store)|
    ensures r.store.pairs == s.pairs && r.store.groups == s.groups && r.store.members == s.members
    ensures r.store.images.Keys == s.images.Keys
    ensures forall id :: id in s.images ==>
              && r.store.images[id].fullPath == s.images[id].fullPath
              && r.store.images[id].filename == s.images[id].filename
    ensures forall id :: id in s.images && id !in chunk ==> r.store.images[id] == s.images[id]
    ensures forall id :: id in chunk ==>
              && id in s.images
              && var l := LoadImage(s.images, id, load);
              && r.store.images[id].md5 == Some(l.md5)
              && r.store.images[id].thumbnail == Some(l.thumbnail)
              && r.store.images[id].faceCount == Some(|l.encodings|)
              && r.store.images[id].width == Some(l.width)
              && r.store.images[id].height == Some(l.height)
    ensures forall f :: f in s.faces ==> f in r.store.faces && r.store.faces[f] == s.faces[f]
    ensures |r.store.faces| >= |s.faces|
    ensures forall f :: f in r.store.faces && f !in s.faces ==>
              && r.store.faces[f].image in chunk
              && forall g :: g in s.faces ==> g < f
    ensures FacesIndexed(s) ==> FacesIndexed(r.store)
  {
    if |Pending(s)| == 0 then
      assert |chunk| == 0;
      Round(s, 0, 0)
    else
      AnalyseChunk(s, chunk, load);
      AnalyseChunkFaces(s, chunk, load);
      Round(Analyse(s, chunk, load), |chunk|, |Pending(s)| - |chunk|)
  }

  /** What one productive call promises about the image table. */
  lemma AnalyseChunk(s: Store, chunk: seq<ImageId>, load: Loader)
    requires IsAnalysisChunk(s, chunk) && |Pending(s)| > 0
    ensures var a := Analyse(s, chunk, load);
            && 0 < |chunk| <= AnalysisChunkSize
            && |Pending(a)| == |Pending(s)| - |chunk|
            && a.pairs == s.pairs && a.groups == s.groups && a.members == s.members
            && a.images.Keys == s.images.Keys
            && (forall id :: id in s.images ==>
                  && a.images[id].fullPath == s.images[id].fullPath
                  && a.images[id].filename == s.images[id].filename)
            && (forall id :: id in s.images && id !in chunk ==> a.images[id] == s.images[id])
            && (forall id :: id in chunk ==>
                  && id in s.images
                  && var l := LoadImage(s.images, id, load);
                  && a.images[id].md5 == Some(l.md5)
                  && a.images[id].thumbnail == Some(l.thumbnail)
                  && a.images[id].faceCount == Some(|l.encodings|)
                  && a.images[id].width == Some(l.width)
                  && a.images[id].height == Some(l.height))
  {
    AnalyseImages(s, chunk, load);
    AnalyseRows(s, chunk, load);
  }

  /** What one call promises about the face table. */
  lemma AnalyseChunkFaces(s: Store, chunk: seq<ImageId>, load: Loader)
    requires forall i :: 0 <= i < |chunk| ==> chunk[i] in s.images
    ensures var a := Analyse(s, chunk, load);
            && (forall f :: f in s.faces ==> f in a.faces && a.faces[f] == s.faces[f])
            && |a.faces| >= |s.faces|
            && (forall f :: f in a.faces && f !in s.faces ==>
                  && a.faces[f].image in chunk
                  && forall g :: g in s.faces ==> g < f)
            && (FacesIndexed(s) ==> FacesIndexed(a))
  {
    AnalyseFaces(s, chunk, load);
    AnalyseKeepsIndex(s, chunk, load);
  }

  // ---------------------------------------------------------------------
  // Face counts agree with face rows
  // ---------------------------------------------------------------------

  /** How many of `rows` belong to image `id`. */
  function CountFor(rows: seq<Face>, id: ImageId): (c: nat)
    ensures c <= |rows|
    ensures c == 0 <==> forall j :: 0 <= j < |rows| ==> rows[j].image != id
  {
    if |rows| == 0 then 0
    else (if rows[0].image == id then 1 else 0) + CountFor(rows[1..], id)
  }

  lemma {:induction false} CountForAppend(a: seq<Face>, b: seq<Face>, id: ImageId)
    ensures CountFor(a + b, id) == CountFor(a, id) + CountFor(b, id)
  {
    if |a| > 0 {
      assert (a + b)[0] == a[0];
      assert (a + b)[1..] == a[1..] + b;
      CountForAppend(a[1..], b, id);
    } else {
      assert a + b == b;
    }
  }

  lemma {:induction false} CountForOneImage(rows: seq<Face>, image: ImageId, id: ImageId)
    requires forall j :: 0 <= j < |rows| ==> rows[j].image == image
    ensures CountFor(rows, id) == if image == id then |rows| else 0
  {
    if |rows| > 0 {
      CountForOneImage(rows[1..], image, id);
    }
  }

  /** Image `id` of a distinct chunk contributes exactly its own zipped
      face rows. */
  lemma {:induction false} CountForChunk(images: map<ImageId, Image>, chunk: seq<ImageId>, load: Loader, id: ImageId)
    requires forall i :: 0 <= i < |chunk| ==> chunk[i] in images
    requires Distinct(chunk) && id in images
    ensures var l := LoadImage(images, id, load);
            CountFor(NewFaces(images, chunk, load), id)
              == if id in chunk then Min(|l.locations|, |l.encodings|) else 0
  {
    if |chunk| > 0 {
      var l0 := LoadImage(images, chunk[0], load);
      var head := FacesOf(chunk[0], l0.locations, l0.encodings);
      CountForAppend(head, NewFaces(images, chunk[1..], load), id);
      CountForOneImage(head, chunk[0], id);
      CountForChunk(images, chunk[1..], load, id);
      if id == chunk[0] {
        assert id !in chunk[1..] by {
          forall j | 0 <= j < |chunk[1..]|
            ensures chunk[1..][j] != id
          {
            assert chunk[1..][j] == chunk[j + 1];
          }
        }
      } else {
        assert id in chunk <==> id in chunk[1..] by {
          if id in chunk {
            var k :| 0 <= k < |chunk| && chunk[k] == id;
            assert chunk[1..][k - 1] == id;
          }
        }
      }
    }
  }

  /** Inserting rows adds to each image's faces exactly the rows that
      belong to it. */
  lemma {:induction false} InsertCounts(faces: map<FaceId, Face>, n: FaceId, rows: seq<Face>, id: ImageId)
    requires forall f :: f in faces ==> f < n
    ensures |OfImage(InsertAt(faces, n, rows), id)| == |OfImage(faces, id)| + CountFor(rows, id)
    decreases |rows|
  {
    if |rows| > 0 {
      var next := faces[n := rows[0]];
      InsertCounts(next, n + 1, rows[1..], id);
      OfImageAdd(faces, n, rows[0], id);
    }
  }

  lemma OfImageAdd(faces: map<FaceId, Face>, n: FaceId, row: Face, id: ImageId)
    requires n !in faces
    ensures |OfImage(faces[n := row], id)| == |OfImage(faces, id)| + if row.image == id then 1 else 0
  {
    var added: set<FaceId> := if row.image == id then {n} else {};
    assert OfImage(faces[n := row], id) == OfImage(faces, id) + added;
    assert n !in OfImage(faces, id);
  }

  /** A call with a pending image in its chunk analyses the chunk. */
  lemma CallAnalyses(s: Store, chunk: seq<ImageId>, load: Loader, id: ImageId)
    requires IsAnalysisChunk(s, chunk) && id in chunk
    ensures AnalyseImagesInBlocks(s, chunk, load).store == Analyse(s, chunk, load)
  {
    assert id in Pending(s);
  }

  /** A pending image has no face rows while every face belongs to an
      analysed image. */
  lemma NoFacesWhilePending(s: Store, id: ImageId)
    requires FacesIndexed(s) && id in Pending(s)
    ensures OfImage(s.faces, id) == {}
  {
  }

  /** An analysed image's `facecount` equals the number of its face rows,
      when the detector returned as many encodings as locations
      (`analyse_images_in_blocks` counts encodings but zips the two lists). */
  lemma FaceCountMatchesRows(s: Store, chunk: seq<ImageId>, load: Loader, id: ImageId)
    requires IsAnalysisChunk(s, chunk) && FacesIndexed(s)
    requires id in chunk
    requires var l := LoadImage(s.images, id, load); |l.locations| == |l.encodings|
    ensures var r := AnalyseImagesInBlocks(s, chunk, load).store;
            r.images[id].faceCount == Some(|OfImage(r.faces, id)|)
  {
    var l := LoadImage(s.images, id, load);
    var rows := NewFaces(s.images, chunk, load);
    var a := Analyse(s, chunk, load);
    assert AnalyseImagesInBlocks(s, chunk, load).store == a by {
      CallAnalyses(s, chunk, load, id);
    }
    assert a.images[id].faceCount == Some(|l.encodings|) by {
      AnalyseRows(s, chunk, load);
    }
    assert |OfImage(a.faces, id)| == CountFor(rows, id) by {
      NoFacesWhilePending(s, id);
      InsertCounts(s.faces, NextRowId(s.faces.Keys), rows, id);
    }
    assert CountFor(rows, id) == |l.encodings| by {
      CountForChunk(s.images, chunk, load, id);
    }
  }
}

=== FILE: clustering.dfy ===
/** The incremental clustering engine, `group_faces_in_blocks`.

    Each qualifying pair is folded into the `faces2groups` table in one of
    four ways: a new group is created, one face joins the other's group,
    nothing happens, or two groups merge. The main results are these.
    Folding keeps at most one membership row per face. The groups are
    exactly the connected components of the pairs folded so far
    (`Components`). So the final partition depends only on the SET of folded
    pairs, not on the order they were folded in or on the merge survivors.
 */
module Clustering {
  import opened Store
  import Graph

  /** `chunk_size` of `group_faces_in_blocks`. */
  const GroupingChunkSize := 10

  /** The default `distance` argument of `group_faces_in_blocks`. */
  const DefaultThreshold: real := 0.5

  // ---------------------------------------------------------------------
  // Reading the membership table
  // ---------------------------------------------------------------------

  /** The group of the first membership row of face `f`, if it has one. */
  function GroupOf(rows: seq<Membership>, f: FaceId): (g: Option<GroupId>)
    ensures g.None? <==> forall i :: 0 <= i < |rows| ==> rows[i].face != f
    ensures g.Some? ==> exists i :: 0 <= i < |rows| && rows[i].face == f && rows[i].group == g.value
  {
    if |rows| == 0 then None
    else if rows[0].face == f then Some(rows[0].group)
    else
      var g := GroupOf(rows[1..], f);
      assert forall i :: 1 <= i < |rows| ==> rows[i] == rows[1..][i - 1];
      g
  }

  function GroupOfFace(s: Store, f: FaceId): Option<GroupId>
  {
    GroupOf(s.members, f)
  }

  /** The group ids that occur in some membership row. */
  function MemberGroups(rows: seq<Membership>): set<GroupId>
  {
    set m | m in rows :: m.group
  }

  /** The at-most-one-group invariant: no face has two membership rows. */
  ghost predicate OneGroupPerFace(rows: seq<Membership>)
  {
    forall i, j :: 0 <= i < j < |rows| ==> rows[i].face != rows[j].face
  }

  /** The store invariant the clustering engine relies on and keeps.
      Each face has at most one membership row. The `groups` table holds
      exactly the groups that have members. No pair joins a face to itself. */
  ghost predicate Partitioned(s: Store)
  {
    && OneGroupPerFace(s.members)
    && s.groups.Keys == MemberGroups(s.members)
    && forall k :: k in s.pairs ==> k.0 != k.1
  }

  /** Faces `x` and `y` share a group. When `x == y` this says that `x` has a group. */
  ghost predicate Together(s: Store, x: FaceId, y: FaceId)
  {
    GroupOfFace(s, x).Some? && GroupOfFace(s, x) == GroupOfFace(s, y)
  }

  /** `x` is `f` or shares `f`'s group. */
  ghost predicate Near(s: Store, x: FaceId, f: FaceId)
  {
    x == f || Together(s, x, f)
  }

  /** The pairs folded so far: those whose `grouped` flag is set. */
  function FoldedEdges(s: Store): set<PairKey>
  {
    set k | k in s.pairs && s.pairs[k].grouped
  }

  /** The groups are the connected components of the folded pairs. */
  ghost predicate Components(s: Store)
  {
    forall x, y :: Together(s, x, y) <==> Graph.Linked(FoldedEdges(s), x, y)
  }

  ghost predicate Clustered(s: Store)
  {
    Partitioned(s) && Components(s)
  }

  lemma GroupOfRow(rows: seq<Membership>, i: int)
    requires OneGroupPerFace(rows) && 0 <= i < |rows|
    ensures GroupOf(rows, rows[i].face) == Some(rows[i].group)
  {
    var g := GroupOf(rows, rows[i].face);
    var j :| 0 <= j < |rows| && rows[j].face == rows[i].face && rows[j].group == g.value;
    assert j == i;
  }

  // ---------------------------------------------------------------------
  // One fold step
  // ---------------------------------------------------------------------

  /** The rows that `select face, groupid from faces2groups where face = ?
      or face = ?` returns, in table order. */
  function Touching(rows: seq<Membership>, f1: FaceId, f2: FaceId): (t: seq<Membership>)
    ensures forall m :: m in t <==> m in rows && (m.face == f1 || m.face == f2)
    ensures |t| <= |rows|
  {
    if |rows| == 0 then []
    else
      var rest := Touching(rows[1..], f1, f2);
      assert forall m :: m in rows <==> m == rows[0] || m in rows[1..];
      if rows[0].face == f1 || rows[0].face == f2 then [rows[0]] + rest else rest
  }

  /** The branches of the fold loop body, in the order
      `group_faces_in_blocks` tests them. */
  datatype FoldCase =
    | MergeGroups      // two or more groups found
    | AlreadyTogether  // one group, two rows
    | JoinFirst        // one group, its row is face1's: face2 joins it
    | JoinSecond       // one group, its row is face2's: face1 joins it
    | Unexpected       // one group, its row is neither face's
    | NewGroup         // no group found

  function Classify(t: seq<Membership>, f1: FaceId, f2: FaceId): (c: FoldCase)
    ensures c != NewGroup <==> |t| > 0
  {
    var gs := MemberGroups(t);
    assert |t| > 0 ==> t[0].group in gs;
    if |gs| > 1 then MergeGroups
    else if |gs| == 1 && |t| == 2 then AlreadyTogether
    else if |gs| == 1 then
      if t[0].face == f1 then JoinFirst
      else if t[0].face == f2 then JoinSecond
      else Unexpected
    else NewGroup
  }

  /** Re-points every row of a group in `absorbed` to `survivor`:
      `update faces2groups set groupid = ? where groupid in (...)`. */
  function Repoint(rows: seq<Membership>, absorbed: set<GroupId>, survivor: GroupId): (r: seq<Membership>)
    ensures |r| == |rows|
    ensures forall i :: 0 <= i < |rows| ==> r[i].face == rows[i].face
    ensures forall i :: 0 <= i < |rows| ==> r[i].group == if rows[i].group in absorbed then survivor else rows[i].group
  {
    if |rows| == 0 then []
    else
      var m := rows[0];
      [if m.group in absorbed then Membership(m.face, survivor) else m] + Repoint(rows[1..], absorbed, survivor)
  }

  /** `update pairs set grouped = 1 where face1 = ? and face2 = ?`. Only
      that pair's flag changes. A key with no row matches nothing. */
  function MarkGrouped(s: Store, key: PairKey): (r: Store)
    ensures r == s.(pairs := r.pairs)
    ensures r.pairs.Keys == s.pairs.Keys
    ensures forall k :: k in s.pairs ==> r.pairs[k].distance == s.pairs[k].distance
    ensures forall k :: k in s.pairs ==> (r.pairs[k].grouped <==> s.pairs[k].grouped || k == key)
    ensures key !in s.pairs ==> r == s
  {
    if key in s.pairs then s.(pairs := s.pairs[key := s.pairs[key].(grouped := true)]) else s
  }

  /** How the merge survivor is chosen. `group_faces_in_blocks` keeps `groups[0]` of a
      Python set, whose order is not specified. The model lets any function
      of the pair and the found groups choose. A choice outside the found
      groups falls back to the first found row's group. */
  type Chooser = (PairKey, set<GroupId>) -> GroupId

  function Survivor(t: seq<Membership>, key: PairKey, choose: Chooser): (g: GroupId)
    requires |t| > 0
    ensures g in MemberGroups(t)
  {
    var gs := MemberGroups(t);
    if choose(key, gs) in gs then choose(key, gs) else t[0].group
  }

  /** The membership and group changes of one iteration of the loop over
      the chunk's pairs. The pair is not marked yet. */
  function Fold(s: Store, key: PairKey, choose: Chooser): (r: Store)
    ensures r.images == s.images && r.faces == s.faces && r.pairs == s.pairs
    ensures GroupRowsKept(s, r)
  {
    var face1 := key.0;
    var face2 := key.1;
    var t := Touching(s.members, face1, face2);
    match Classify(t, face1, face2)
    case MergeGroups =>
      var survivor := Survivor(t, key, choose);
      var absorbed := MemberGroups(t) - {survivor};
      s.(members := Repoint(s.members, absorbed, survivor), groups := s.groups - absorbed)
    case AlreadyTogether => s
    case JoinFirst => s.(members := s.members + [Membership(face2, t[0].group)])
    case JoinSecond => s.(members := s.members + [Membership(face1, t[0].group)])
    case Unexpected => s
    case NewGroup =>
      var g := NextRowId(s.groups.Keys);
      s.(groups := s.groups[g := Group(None, None)],
         members := s.members + [Membership(face1, g), Membership(face2, g)])
  }

  /** One full iteration: fold the pair, then mark it grouped. */
  function FoldPair(s: Store, key: PairKey, choose: Chooser): (r: Store)
    ensures r.images == s.images && r.faces == s.faces
    ensures r.pairs.Keys == s.pairs.Keys
    ensures forall k :: k in s.pairs ==> r.pairs[k].distance == s.pairs[k].distance
    ensures forall k :: k in s.pairs ==> (r.pairs[k].grouped <==> s.pairs[k].grouped || k == key)
  {
    MarkGrouped(Fold(s, key, choose), key)
  }

  // ---------------------------------------------------------------------
  // Facts about the membership table
  // ---------------------------------------------------------------------

  /** The group ids an optional group contributes: none or one. */
  function AsSet(g: Option<GroupId>): set<GroupId>
  {
    if g.Some? then {g.value} else {}
  }

  lemma GroupOfIsMemberGroup(rows: seq<Membership>, f: FaceId)
    requires GroupOf(rows, f).Some?
    ensures GroupOf(rows, f).value in MemberGroups(rows)
  {
    var i :| 0 <= i < |rows| && rows[i].face == f && rows[i].group == GroupOf(rows, f).value;
    assert rows[i] in rows;
  }

  lemma {:induction false} GroupOfAppend(rows: seq<Membership>, extra: seq<Membership>, f: FaceId)
    ensures GroupOf(rows + extra, f)
         == if GroupOf(rows, f).Some? then GroupOf(rows, f) else GroupOf(extra, f)
  {
    if |rows| == 0 {
      assert rows + extra == extra;
    } else {
      assert (rows + extra)[0] == rows[0];
      assert (rows + extra)[1..] == rows[1..] + extra;
      GroupOfAppend(rows[1..], extra, f);
    }
  }

  /** The group of a face after `Repoint`: absorbed groups read as the survivor. */
  function Relabel(g: Option<GroupId>, absorbed: set<GroupId>, survivor: GroupId): Option<GroupId>
  {
    if g.Some? && g.value in absorbed then Some(survivor) else g
  }

  lemma {:induction false} GroupOfRepoint(rows: seq<Membership>, absorbed: set<GroupId>, survivor: GroupId, f: FaceId)
    ensures GroupOf(Repoint(rows, absorbed, survivor), f) == Relabel(GroupOf(rows, f), absorbed, survivor)
  {
    if |rows| > 0 {
      var r := Repoint(rows, absorbed, survivor);
      assert r[1..] == Repoint(rows[1..], absorbed, survivor);
      GroupOfRepoint(rows[1..], absorbed, survivor, f);
    }
  }

  lemma AppendOneGroupPerFace(rows: seq<Membership>, extra: seq<Membership>)
    requires OneGroupPerFace(rows) && OneGroupPerFace(extra)
    requires forall i, j :: 0 <= i < |rows| && 0 <= j < |extra| ==> rows[i].face != extra[j].face
    ensures OneGroupPerFace(rows + extra)
  {
    var all := rows + extra;
    forall i, j | 0 <= i < j < |all|
      ensures all[i].face != all[j].face
    {
      if j < |rows| {
        assert all[i] == rows[i] && all[j] == rows[j];
      } else if i < |rows| {
        assert all[i] == rows[i] && all[j] == extra[j - |rows|];
      } else {
        assert all[i] == extra[i - |rows|] && all[j] == extra[j - |rows|];
      }
    }
  }

  lemma MemberGroupsAppend(rows: seq<Membership>, extra: seq<Membership>)
    ensures MemberGroups(rows + extra) == MemberGroups(rows) + MemberGroups(extra)
  {
    assert forall m :: m in rows + extra <==> m in rows || m in extra;
  }

  lemma MemberGroupsRepoint(rows: seq<Membership>, absorbed: set<GroupId>, survivor: GroupId)
    requires survivor in MemberGroups(rows) && survivor !in absorbed
    ensures MemberGroups(Repoint(rows, absorbed, survivor)) == MemberGroups(rows) - absorbed
  {
    var r := Repoint(rows, absorbed, survivor);
    forall g | g in MemberGroups(r)
      ensures g in MemberGroups(rows) - absorbed
    {
      var m :| m in r && m.group == g;
      var i :| 0 <= i < |r| && r[i] == m;
      assert rows[i] in rows;
    }
    forall g | g in MemberGroups(rows) - absorbed
      ensures g in MemberGroups(r)
    {
      var m :| m in rows && m.group == g;
      var i :| 0 <= i < |rows| && rows[i] == m;
      assert r[i] in r;
    }
  }

  /** Under the invariant, the rows found for two distinct faces are at most
      one row per face, and their groups are the groups of the two faces. */
  lemma TouchingShape(rows: seq<Membership>, f1: FaceId, f2: FaceId)
    requires OneGroupPerFace(rows) && f1 != f2
    ensures |Touching(rows, f1, f2)| == |AsSet(GroupOf(rows, f1))| + |AsSet(GroupOf(rows, f2))|
    ensures MemberGroups(Touching(rows, f1, f2)) == AsSet(GroupOf(rows, f1)) + AsSet(GroupOf(rows, f2))
  {
    TouchingCount(rows, f1, f2);
    TouchingGroups(rows, f1, f2);
  }

  /** The tail of a table with one row per face has one row per face, and
      none of them is for the head's face. */
  lemma OneGroupPerFaceTail(rows: seq<Membership>)
    requires OneGroupPerFace(rows) && |rows| > 0
    ensures OneGroupPerFace(rows[1..])
    ensures forall i :: 0 <= i < |rows[1..]| ==> rows[1..][i].face != rows[0].face
  {
    var rest := rows[1..];
    forall i, j | 0 <= i < j < |rest|
      ensures rest[i].face != rest[j].face
    {
      assert rest[i] == rows[i + 1] && rest[j] == rows[j + 1];
    }
    forall i | 0 <= i < |rest|
      ensures rest[i].face != rows[0].face
    {
      assert rest[i] == rows[i + 1];
    }
  }

  lemma {:induction false} TouchingCount(rows: seq<Membership>, f1: FaceId, f2: FaceId)
    requires OneGroupPerFace(rows) && f1 != f2
    ensures |Touching(rows, f1, f2)| == |AsSet(GroupOf(rows, f1))| + |AsSet(GroupOf(rows, f2))|
  {
    if |rows| > 0 {
      var rest := rows[1..];
      OneGroupPerFaceTail(rows);
      TouchingCount(rest, f1, f2);
      if rows[0].face == f1 {
        assert GroupOf(rest, f1).None?;
      } else if rows[0].face == f2 {
        assert GroupOf(rest, f2).None?;
      }
    }
  }

  lemma TouchingGroups(rows: seq<Membership>, f1: FaceId, f2: FaceId)
    requires OneGroupPerFace(rows)
    ensures MemberGroups(Touching(rows, f1, f2)) == AsSet(GroupOf(rows, f1)) + AsSet(GroupOf(rows, f2))
  {
    var t := Touching(rows, f1, f2);
    forall g | g in MemberGroups(t)
      ensures g in AsSet(GroupOf(rows, f1)) + AsSet(GroupOf(rows, f2))
    {
      var m :| m in t && m.group == g;
      var i :| 0 <= i < |rows| && rows[i] == m;
      GroupOfRow(rows, i);
    }
    forall g | g in AsSet(GroupOf(rows, f1)) + AsSet(GroupOf(rows, f2))
      ensures g in MemberGroups(t)
    {
      var f := if g in AsSet(GroupOf(rows, f1)) then f1 else f2;
      var i :| 0 <= i < |rows| && rows[i].face == f && rows[i].group == GroupOf(rows, f).value;
      assert rows[i] in t;
    }
  }

  /** Under the invariant, the branch the loop body takes is determined by
      the groups of the two faces. */
  lemma ClassifyShape(rows: seq<Membership>, f1: FaceId, f2: FaceId)
    requires OneGroupPerFace(rows) && f1 != f2
    ensures var t := Touching(rows, f1, f2);
            var c := Classify(t, f1, f2);
            var g1 := GroupOf(rows, f1);
            var g2 := GroupOf(rows, f2);
            && (c == NewGroup <==> g1.None? && g2.None?)
            && (c == JoinFirst <==> g1.Some? && g2.None?)
            && (c == JoinSecond <==> g1.None? && g2.Some?)
            && (c == AlreadyTogether <==> g1.Some? && g1 == g2)
            && (c == MergeGroups <==> g1.Some? && g2.Some? && g1 != g2)
            && (c == JoinFirst ==> t[0].group == g1.value)
            && (c == JoinSecond ==> t[0].group == g2.value)
            && (c == MergeGroups ==> MemberGroups(t) == {g1.value, g2.value})
  {
    var g1 := GroupOf(rows, f1);
    var g2 := GroupOf(rows, f2);
    TouchingShape(rows, f1, f2);
    if g1.Some? && g2.Some? && g1 != g2 {
      ClassifyMerge(rows, f1, f2);
    } else if g1.Some? && g2.Some? {
      ClassifyTogether(rows, f1, f2);
    } else if g1.Some? || g2.Some? {
      ClassifyJoin(rows, f1, f2);
    } else {
      ClassifyNew(rows, f1, f2);
    }
  }

  lemma ClassifyNew(rows: seq<Membership>, f1: FaceId, f2: FaceId)
    requires OneGroupPerFace(rows) && f1 != f2
    requires GroupOf(rows, f1).None? && GroupOf(rows, f2).None?
    ensures Classify(Touching(rows, f1, f2), f1, f2) == NewGroup
  {
    TouchingCount(rows, f1, f2);
  }

  lemma ClassifyMerge(rows: seq<Membership>, f1: FaceId, f2: FaceId)
    requires OneGroupPerFace(rows) && f1 != f2
    requires GroupOf(rows, f1).Some? && GroupOf(rows, f2).Some? && GroupOf(rows, f1) != GroupOf(rows, f2)
    ensures Classify(Touching(rows, f1, f2), f1, f2) == MergeGroups
  {
    var gs := MemberGroups(Touching(rows, f1, f2));
    TouchingGroups(rows, f1, f2);
    assert gs == {GroupOf(rows, f1).value, GroupOf(rows, f2).value};
    assert |gs| == 2;
  }

  lemma ClassifyTogether(rows: seq<Membership>, f1: FaceId, f2: FaceId)
    requires OneGroupPerFace(rows) && f1 != f2
    requires GroupOf(rows, f1).Some? && GroupOf(rows, f1) == GroupOf(rows, f2)
    ensures Classify(Touching(rows, f1, f2), f1, f2) == AlreadyTogether
  {
    var t := Touching(rows, f1, f2);
    TouchingShape(rows, f1, f2);
    assert MemberGroups(t) == {GroupOf(rows, f1).value} && |t| == 2;
  }

  lemma ClassifyJoin(rows: seq<Membership>, f1: FaceId, f2: FaceId)
    requires OneGroupPerFace(rows) && f1 != f2
    requires GroupOf(rows, f1).Some? != GroupOf(rows, f2).Some?
    ensures var t := Touching(rows, f1, f2);
            var f := if GroupOf(rows, f1).Some? then f1 else f2;
            && |t| == 1 && t[0].face == f && Some(t[0].group) == GroupOf(rows, f)
            && Classify(t, f1, f2) == if f == f1 then JoinFirst else JoinSecond
  {
    var t := Touching(rows, f1, f2);
    var f := if GroupOf(rows, f1).Some? then f1 else f2;
    TouchingShape(rows, f1, f2);
    assert MemberGroups(t) == {GroupOf(rows, f).value} && |t| == 1;
    assert t[0] in t;
    var i :| 0 <= i < |rows| && rows[i] == t[0];
    GroupOfRow(rows, i);
  }

  // ---------------------------------------------------------------------
  // The four ways a pair is folded
  // ---------------------------------------------------------------------

  /** Marking the pair touches only the `pairs` table. */
  lemma MarkKeepsTables(s: Store, key: PairKey, choose: Chooser)
    ensures FoldPair(s, key, choose).members == Fold(s, key, choose).members
    ensures FoldPair(s, key, choose).groups == Fold(s, key, choose).groups
  {
  }

  /** The tables a fold writes when neither face has a group. */
  lemma FoldTablesFresh(s: Store, key: PairKey, choose: Chooser)
    requires OneGroupPerFace(s.members) && key.0 != key.1
    requires GroupOfFace(s, key.0).None? && GroupOfFace(s, key.1).None?
    ensures var n := NextRowId(s.groups.Keys);
            && Fold(s, key, choose).members == s.members + [Membership(key.0, n), Membership(key.1, n)]
            && Fold(s, key, choose).groups == s.groups[n := Group(None, None)]
  {
    ClassifyShape(s.members, key.0, key.1);
  }

  /** The tables a fold writes when exactly one face has a group. */
  lemma FoldTablesJoin(s: Store, key: PairKey, choose: Chooser)
    requires OneGroupPerFace(s.members) && key.0 != key.1
    requires GroupOfFace(s, key.0).Some? != GroupOfFace(s, key.1).Some?
    ensures var joiner := if GroupOfFace(s, key.0).Some? then key.1 else key.0;
            var g := if GroupOfFace(s, key.0).Some? then GroupOfFace(s, key.0) else GroupOfFace(s, key.1);
            && Fold(s, key, choose).members == s.members + [Membership(joiner, g.value)]
            && Fold(s, key, choose).groups == s.groups
  {
    ClassifyShape(s.members, key.0, key.1);
  }

  /** The tables a fold writes when both faces share a group. */
  lemma FoldTablesShared(s: Store, key: PairKey, choose: Chooser)
    requires OneGroupPerFace(s.members) && key.0 != key.1
    requires GroupOfFace(s, key.0).Some? && GroupOfFace(s, key.0) == GroupOfFace(s, key.1)
    ensures Fold(s, key, choose) == s
  {
    ClassifyShape(s.members, key.0, key.1);
  }

  /** The tables a fold writes when the faces lie in different groups. */
  lemma FoldTablesMerge(s: Store, key: PairKey, choose: Chooser)
    requires OneGroupPerFace(s.members) && key.0 != key.1
    requires GroupOfFace(s, key.0).Some? && GroupOfFace(s, key.1).Some?
    requires GroupOfFace(s, key.0) != GroupOfFace(s, key.1)
    ensures var gs := {GroupOfFace(s, key.0).value, GroupOfFace(s, key.1).value};
            var survivor := Survivor(Touching(s.members, key.0, key.1), key, choose);
            && gs == MemberGroups(Touching(s.members, key.0, key.1))
            && Fold(s, key, choose).members == Repoint(s.members, gs - {survivor}, survivor)
            && Fold(s, key, choose).groups == s.groups - (gs - {survivor})
  {
    ClassifyShape(s.members, key.0, key.1);
  }

  /** Every group row of `r` is a row of `s` with its name and best face
      unchanged, or a new row with neither. */
  ghost predicate GroupRowsKept(s: Store, r: Store)
  {
    forall g :: g in r.groups ==>
      (g in s.groups && r.groups[g] == s.groups[g]) || r.groups[g] == Group(None, None)
  }

  /** Whichever way a pair is folded, no group row that survives changes,
      and a created row has no name and no best face. */
  lemma FoldKeepsGroupRows(s: Store, key: PairKey, choose: Chooser)
    ensures GroupRowsKept(s, FoldPair(s, key, choose))
  {
    MarkKeepsTables(s, key, choose);
  }

  /** Appending rows for faces that had no group. */
  lemma AppendFresh(rows: seq<Membership>, extra: seq<Membership>)
    requires OneGroupPerFace(rows) && OneGroupPerFace(extra)
    requires forall j :: 0 <= j < |extra| ==> GroupOf(rows, extra[j].face).None?
    ensures OneGroupPerFace(rows + extra)
    ensures MemberGroups(rows + extra) == MemberGroups(rows) + MemberGroups(extra)
    ensures forall x :: GroupOf(rows + extra, x)
                     == if GroupOf(rows, x).Some? then GroupOf(rows, x) else GroupOf(extra, x)
  {
    AppendOneGroupPerFace(rows, extra);
    MemberGroupsAppend(rows, extra);
    forall x
      ensures GroupOf(rows + extra, x)
           == if GroupOf(rows, x).Some? then GroupOf(rows, x) else GroupOf(extra, x)
    {
      GroupOfAppend(rows, extra, x);
    }
  }

  /** Two faceless rows appended under a group id no row uses yet. */
  lemma FreshRows(rows: seq<Membership>, f1: FaceId, f2: FaceId, g: GroupId)
    requires OneGroupPerFace(rows) && f1 != f2 && g !in MemberGroups(rows)
    requires GroupOf(rows, f1).None? && GroupOf(rows, f2).None?
    ensures var rows' := rows + [Membership(f1, g), Membership(f2, g)];
            && OneGroupPerFace(rows')
            && MemberGroups(rows') == MemberGroups(rows) + {g}
            && (forall x :: GroupOf(rows', x) == if x == f1 || x == f2 then Some(g) else GroupOf(rows, x))
            && (forall x :: GroupOf(rows, x) != Some(g))
  {
    var extra := [Membership(f1, g), Membership(f2, g)];
    assert OneGroupPerFace(extra);
    assert forall j :: 0 <= j < |extra| ==> GroupOf(rows, extra[j].face).None?;
    AppendFresh(rows, extra);
    forall x
      ensures GroupOf(extra, x) == if x == f1 || x == f2 then Some(g) else None
    {
      assert extra[1..] == [Membership(f2, g)];
      assert extra[1..][1..] == [];
    }
    forall x | GroupOf(rows, x).Some?
      ensures GroupOf(rows, x) != Some(g)
    {
      GroupOfIsMemberGroup(rows, x);
    }
    assert MemberGroups(extra) == {g} by {
      assert extra[0] in extra;
    }
  }

  /** Neither face has a group: exactly one new group is created, holding
      exactly the two faces, and no other membership changes. */
  lemma FoldCreatesGroup(s: Store, key: PairKey, choose: Chooser)
    requires Partitioned(s) && key in s.pairs
    requires GroupOfFace(s, key.0).None? && GroupOfFace(s, key.1).None?
    ensures var r := FoldPair(s, key, choose);
            var n := GroupOfFace(r, key.0);
            && n.Some? && GroupOfFace(r, key.1) == n
            && n.value !in s.groups
            && r.groups.Keys == s.groups.Keys + {n.value}
            && r.groups[n.value] == Group(None, None)
            && (forall g :: g in s.groups ==> r.groups[g] == s.groups[g])
            && (forall x :: GroupOfFace(r, x) == n <==> x == key.0 || x == key.1)
            && (forall x :: x != key.0 && x != key.1 ==> GroupOfFace(r, x) == GroupOfFace(s, x))
            && |r.members| == |s.members| + 2
            && Partitioned(r)
  {
    var r := FoldPair(s, key, choose);
    FoldTablesFresh(s, key, choose);
    MarkKeepsTables(s, key, choose);
    FreshRows(s.members, key.0, key.1, NextRowId(s.groups.Keys));
  }

  /** Exactly one face has a group: the other face joins that group, and no
      other membership changes. */
  lemma FoldJoinsGroup(s: Store, key: PairKey, choose: Chooser)
    requires Partitioned(s) && key in s.pairs
    requires GroupOfFace(s, key.0).Some? != GroupOfFace(s, key.1).Some?
    ensures var r := FoldPair(s, key, choose);
            var g := if GroupOfFace(s, key.0).Some? then GroupOfFace(s, key.0) else GroupOfFace(s, key.1);
            && GroupOfFace(r, key.0) == g && GroupOfFace(r, key.1) == g
            && (forall x :: x != key.0 && x != key.1 ==> GroupOfFace(r, x) == GroupOfFace(s, x))
            && r.groups == s.groups
            && |r.members| == |s.members| + 1
            && Partitioned(r)
  {
    var (f1, f2) := key;
    FoldTablesJoin(s, key, choose);
    MarkKeepsTables(s, key, choose);
    var (joiner, host) := if GroupOfFace(s, f1).Some? then (f2, f1) else (f1, f2);
    GroupOfIsMemberGroup(s.members, host);
    JoinRow(s.members, joiner, GroupOfFace(s, host).value);
  }

  /** Appending a row for a face without a group puts it in `g` and
      changes no other face's group. */
  lemma JoinRow(rows: seq<Membership>, f: FaceId, g: GroupId)
    requires OneGroupPerFace(rows) && GroupOf(rows, f).None? && g in MemberGroups(rows)
    ensures var rows' := rows + [Membership(f, g)];
            && OneGroupPerFace(rows')
            && MemberGroups(rows') == MemberGroups(rows)
            && (forall x :: GroupOf(rows', x) == if x == f then Some(g) else GroupOf(rows, x))
  {
    var extra := [Membership(f, g)];
    AppendFresh(rows, extra);
    assert MemberGroups(extra) == {g} by {
      assert extra[0] in extra;
    }
    assert forall x :: GroupOf(extra, x) == if x == f then Some(g) else None by {
      assert extra[1..] == [];
    }
  }

  /** Both faces already share a group: memberships and groups are unchanged. */
  lemma FoldKeepsSharedGroup(s: Store, key: PairKey, choose: Chooser)
    requires Partitioned(s) && key in s.pairs
    requires GroupOfFace(s, key.0).Some? && GroupOfFace(s, key.0) == GroupOfFace(s, key.1)
    ensures var r := FoldPair(s, key, choose);
            r.members == s.members && r.groups == s.groups
  {
    FoldTablesShared(s, key, choose);
    MarkKeepsTables(s, key, choose);
  }

  /** The faces lie in two different groups: every membership of the
      absorbed group is re-pointed to the survivor and the absorbed group's
      row is deleted. The survivor is the chooser's pick when that is one of
      the two groups. The membership rows keep their faces and their number. */
  lemma FoldMergesGroups(s: Store, key: PairKey, choose: Chooser)
    requires Partitioned(s) && key in s.pairs
    requires GroupOfFace(s, key.0).Some? && GroupOfFace(s, key.1).Some?
    requires GroupOfFace(s, key.0) != GroupOfFace(s, key.1)
    ensures var r := FoldPair(s, key, choose);
            var g1 := GroupOfFace(s, key.0).value;
            var g2 := GroupOfFace(s, key.1).value;
            var survivor := GroupOfFace(r, key.0);
            && survivor.Some? && GroupOfFace(r, key.1) == survivor
            && (survivor.value == g1 || survivor.value == g2)
            && (choose(key, {g1, g2}) in {g1, g2} ==> survivor.value == choose(key, {g1, g2}))
            && (forall x :: GroupOfFace(r, x)
                  == if GroupOfFace(s, x) == Some(g1) || GroupOfFace(s, x) == Some(g2)
                     then survivor else GroupOfFace(s, x))
            && r.groups == s.groups - ({g1, g2} - {survivor.value})
            && |r.members| == |s.members|
            && (forall i :: 0 <= i < |s.members| ==> r.members[i].face == s.members[i].face)
            && Partitioned(r)
  {
    var (f1, f2) := key;
    var r := FoldPair(s, key, choose);
    FoldTablesMerge(s, key, choose);
    MarkKeepsTables(s, key, choose);
    var g1 := GroupOfFace(s, f1).value;
    var g2 := GroupOfFace(s, f2).value;
    var survivor := Survivor(Touching(s.members, f1, f2), key, choose);
    MergeRows(s.members, f1, f2, g1, g2, survivor);
    assert GroupOfFace(r, f1) == Some(survivor);
    assert r.groups.Keys == MemberGroups(r.members);
    assert r.pairs.Keys == s.pairs.Keys;
  }

  /** The membership table after a merge of the groups `g1` of `f1` and `g2`
      of `f2`: the faces of both groups are in the survivor's, every other
      face keeps its group, and the absorbed group has no rows left. */
  lemma MergeRows(rows: seq<Membership>, f1: FaceId, f2: FaceId, g1: GroupId, g2: GroupId, survivor: GroupId)
    requires OneGroupPerFace(rows)
    requires GroupOf(rows, f1) == Some(g1) && GroupOf(rows, f2) == Some(g2) && g1 != g2
    requires survivor == g1 || survivor == g2
    ensures var r := Repoint(rows, {g1, g2} - {survivor}, survivor);
            && OneGroupPerFace(r)
            && MemberGroups(r) == MemberGroups(rows) - ({g1, g2} - {survivor})
            && forall x :: GroupOf(r, x)
                 == if GroupOf(rows, x) == Some(g1) || GroupOf(rows, x) == Some(g2)
                    then Some(survivor) else GroupOf(rows, x)
  {
    var absorbed := {g1, g2} - {survivor};
    var r := Repoint(rows, absorbed, survivor);
    forall x
      ensures GroupOf(r, x) == Relabel(GroupOf(rows, x), absorbed, survivor)
    {
      GroupOfRepoint(rows, absorbed, survivor, x);
    }
    GroupOfIsMemberGroup(rows, f1);
    GroupOfIsMemberGroup(rows, f2);
    MemberGroupsRepoint(rows, absorbed, survivor);
  }

  // ---------------------------------------------------------------------
  // What every fold keeps
  // ---------------------------------------------------------------------

  /** The branch `group_faces_in_blocks` marks "shouldn't happen" cannot be taken, in any
      store: every row the lookup returns belongs to one of the two faces. */
  lemma UnexpectedBranchUnreachable(rows: seq<Membership>, f1: FaceId, f2: FaceId)
    ensures Classify(Touching(rows, f1, f2), f1, f2) != Unexpected
  {
    var t := Touching(rows, f1, f2);
    if |t| > 0 {
      assert t[0] in t;
    }
  }

  /** `x` lies in the group of one of the pair's faces, or is one of them. */
  ghost predicate NearPair(s: Store, key: PairKey, x: FaceId)
  {
    Near(s, x, key.0) || Near(s, x, key.1)
  }

  /** `r` is `s` with the classes of the pair's two faces merged: `x` and
      `y` share a group in `r` exactly when they did in `s` or both lie in
      the merged class. */
  ghost predicate Unites(s: Store, r: Store, key: PairKey)
  {
    forall x, y :: Together(r, x, y)
      <==> Together(s, x, y) || (NearPair(s, key, x) && NearPair(s, key, y))
  }

  /** The class merge, stated for any store `r` whose groups relate to
      those of `s` the way a fresh-group fold makes them. */
  lemma UnionWhenFresh(s: Store, r: Store, key: PairKey, n: GroupId)
    requires GroupOfFace(s, key.0).None? && GroupOfFace(s, key.1).None?
    requires forall x :: GroupOfFace(s, x) != Some(n)
    requires forall x :: GroupOfFace(r, x) == if x == key.0 || x == key.1 then Some(n) else GroupOfFace(s, x)
    ensures Unites(s, r, key)
  {
  }

  /** The same, for a fold that leaves the memberships alone because the two
      faces already share a group. */
  lemma UnionWhenShared(s: Store, r: Store, key: PairKey)
    requires GroupOfFace(s, key.0).Some? && GroupOfFace(s, key.0) == GroupOfFace(s, key.1)
    requires r.members == s.members
    ensures Unites(s, r, key)
  {
  }

  /** The same, for a fold where `joiner` joins the group `g` of the other face. */
  lemma UnionWhenJoining(s: Store, r: Store, key: PairKey, joiner: FaceId, g: GroupId)
    requires joiner == key.0 || joiner == key.1
    requires GroupOfFace(s, joiner).None?
    requires GroupOfFace(s, if joiner == key.0 then key.1 else key.0) == Some(g)
    requires forall x :: GroupOfFace(r, x) == if x == joiner then Some(g) else GroupOfFace(s, x)
    ensures Unites(s, r, key)
  {
  }

  /** The same, for a fold that merges the groups `g1` and `g2` of the two faces. */
  lemma UnionWhenMerging(s: Store, r: Store, key: PairKey, g1: GroupId, g2: GroupId, survivor: GroupId)
    requires GroupOfFace(s, key.0) == Some(g1) && GroupOfFace(s, key.1) == Some(g2)
    requires survivor == g1 || survivor == g2
    requires forall x :: GroupOfFace(r, x)
               == if GroupOfFace(s, x) == Some(g1) || GroupOfFace(s, x) == Some(g2)
                  then Some(survivor) else GroupOfFace(s, x)
    ensures Unites(s, r, key)
  {
  }

  /** A fold keeps the invariant and merges the classes of the pair's two
      faces, changing nothing else: afterwards `x` and `y` share a group
      exactly when they did before or both lie in the merged class. */
  lemma FoldUnites(s: Store, key: PairKey, choose: Chooser)
    requires Partitioned(s) && key in s.pairs
    ensures var r := FoldPair(s, key, choose);
            Partitioned(r) && Unites(s, r, key)
  {
    var (f1, f2) := key;
    var r := FoldPair(s, key, choose);
    var g1 := GroupOfFace(s, f1);
    var g2 := GroupOfFace(s, f2);
    if g1.None? && g2.None? {
      FoldCreatesGroup(s, key, choose);
      var n := GroupOfFace(r, f1).value;
      forall x | GroupOfFace(s, x).Some?
        ensures GroupOfFace(s, x) != Some(n)
      {
        GroupOfIsMemberGroup(s.members, x);
      }
      UnionWhenFresh(s, r, key, n);
    } else if g1.Some? != g2.Some? {
      FoldJoinsGroup(s, key, choose);
      var joiner := if g1.Some? then f2 else f1;
      var g := if g1.Some? then g1.value else g2.value;
      UnionWhenJoining(s, r, key, joiner, g);
    } else if g1 == g2 {
      FoldKeepsSharedGroup(s, key, choose);
      UnionWhenShared(s, r, key);
    } else {
      FoldMergesGroups(s, key, choose);
      UnionWhenMerging(s, r, key, g1.value, g2.value, GroupOfFace(r, f1).value);
    }
  }

  /** After a fold the pair's faces share a group, and no faces that shared
      a group are separated. */
  lemma FoldJoinsPair(s: Store, key: PairKey, choose: Chooser)
    requires Partitioned(s) && key in s.pairs
    ensures var r := FoldPair(s, key, choose);
            && Together(r, key.0, key.1)
            && forall x, y :: Together(s, x, y) ==> Together(r, x, y)
  {
    FoldUnites(s, key, choose);
    var r := FoldPair(s, key, choose);
    assert NearPair(s, key, key.0) && NearPair(s, key, key.1);
  }

  lemma FoldedEdgesAfterFold(s: Store, key: PairKey, choose: Chooser)
    requires key in s.pairs
    ensures FoldedEdges(FoldPair(s, key, choose)) == FoldedEdges(s) + {key}
  {
  }

  /** Folding a stored pair keeps the groups equal to the connected
      components of the folded pairs. */
  lemma FoldKeepsComponents(s: Store, key: PairKey, choose: Chooser)
    requires Clustered(s) && key in s.pairs
    ensures Clustered(FoldPair(s, key, choose))
  {
    var r := FoldPair(s, key, choose);
    FoldUnites(s, key, choose);
    FoldedEdgesAfterFold(s, key, choose);
    forall x, y
      ensures Together(r, x, y) <==> Graph.Linked(FoldedEdges(r), x, y)
    {
      UnitesLinks(s, r, key, x, y);
    }
  }

  /** Uniting the groups of the pair's faces is adding the pair as an edge. */
  lemma UnitesLinks(s: Store, r: Store, key: PairKey, x: FaceId, y: FaceId)
    requires Components(s) && Unites(s, r, key)
    requires FoldedEdges(r) == FoldedEdges(s) + {key}
    ensures Together(r, x, y) <==> Graph.Linked(FoldedEdges(r), x, y)
  {
    var e := FoldedEdges(s);
    Graph.AddEdge(e, key.0, key.1, x, y);
    assert NearPair(s, key, x) <==> Graph.NearEither(e, key.0, key.1, x);
    assert NearPair(s, key, y) <==> Graph.NearEither(e, key.0, key.1, y);
  }

  // ---------------------------------------------------------------------
  // One call of group_faces_in_blocks
  // ---------------------------------------------------------------------

  /** `distance <= ? and grouped = 0`. A NULL distance never qualifies,
      since SQL's comparison with NULL is not true, and neither does a
      pair already folded. */
  predicate IsCandidate(p: Pair, threshold: real): (b: bool)
    ensures p.distance.None? || p.grouped ==> !b
  {
    p.distance.Some? && p.distance.value <= threshold && !p.grouped
  }

  /** The pairs the count and `limit` queries range over. No candidate has
      been folded yet, and no unmeasured pair is a candidate. */
  function Candidates(s: Store, threshold: real): (c: set<PairKey>)
    ensures c <= s.pairs.Keys
    ensures c !! FoldedEdges(s)
    ensures forall k :: k in s.pairs && s.pairs[k].distance.None? ==> k !in c
  {
    set k | k in s.pairs && IsCandidate(s.pairs[k], threshold)
  }

  /** What the `limit` query may return: distinct candidates, as many as
      the chunk size allows. Its row order is not specified. */
  ghost predicate IsGroupingChunk(s: Store, threshold: real, chunk: seq<PairKey>)
  {
    && Distinct(chunk)
    && (forall i :: 0 <= i < |chunk| ==> chunk[i] in Candidates(s, threshold))
    && |chunk| == Min(GroupingChunkSize, |Candidates(s, threshold)|)
  }

  /** The loop over the chunk's pairs, one committed fold per pair. Images
      and faces are untouched, a flag once set stays set, and every pair of
      the chunk ends up marked. */
  function FoldPairs(s: Store, chunk: seq<PairKey>, choose: Chooser): (r: Store)
    ensures r.images == s.images && r.faces == s.faces && r.pairs.Keys == s.pairs.Keys
    ensures forall k :: k in s.pairs && s.pairs[k].grouped ==> r.pairs[k].grouped
    ensures forall i :: 0 <= i < |chunk| && chunk[i] in s.pairs ==> r.pairs[chunk[i]].grouped
    decreases |chunk|
  {
    if |chunk| == 0 then s else FoldPairs(FoldPair(s, chunk[0], choose), chunk[1..], choose)
  }

  /** The loop writes only the `grouped` flags of the chunk's pairs, plus the
      membership and group tables. */
  lemma {:induction false} FoldPairsTables(s: Store, chunk: seq<PairKey>, choose: Chooser)
    requires forall i :: 0 <= i < |chunk| ==> chunk[i] in s.pairs
    ensures var r := FoldPairs(s, chunk, choose);
            && r.images == s.images && r.faces == s.faces
            && r.pairs.Keys == s.pairs.Keys
            && (forall k :: k in s.pairs ==> r.pairs[k].distance == s.pairs[k].distance)
            && (forall k :: k in s.pairs ==> (r.pairs[k].grouped <==> s.pairs[k].grouped || k in chunk))
    decreases |chunk|
  {
    if |chunk| > 0 {
      var s' := FoldPair(s, chunk[0], choose);
      assert forall i :: 0 <= i < |chunk[1..]| ==> chunk[1..][i] == chunk[i + 1];
      FoldPairsTables(s', chunk[1..], choose);
      assert forall k :: k in chunk <==> k == chunk[0] || k in chunk[1..];
    }
  }

  /** The loop changes no surviving group row. */
  lemma {:induction false} FoldPairsKeepGroupRows(s: Store, chunk: seq<PairKey>, choose: Chooser)
    ensures GroupRowsKept(s, FoldPairs(s, chunk, choose))
    decreases |chunk|
  {
    if |chunk| > 0 {
      var s' := FoldPair(s, chunk[0], choose);
      FoldKeepsGroupRows(s, chunk[0], choose);
      FoldPairsKeepGroupRows(s', chunk[1..], choose);
    }
  }

  /** The loop keeps the invariant and the components theorem. */
  lemma {:induction false} FoldPairsKeepComponents(s: Store, chunk: seq<PairKey>, choose: Chooser)
    requires forall i :: 0 <= i < |chunk| ==> chunk[i] in s.pairs
    ensures Clustered(s) ==> Clustered(FoldPairs(s, chunk, choose))
    decreases |chunk|
  {
    if |chunk| > 0 && Clustered(s) {
      var s' := FoldPair(s, chunk[0], choose);
      FoldKeepsComponents(s, chunk[0], choose);
      assert forall i :: 0 <= i < |chunk[1..]| ==> chunk[1..][i] == chunk[i + 1];
      FoldPairsKeepComponents(s', chunk[1..], choose);
    }
  }

  /** `group_faces_in_blocks`: returns the number of pairs folded and the
      candidate count before the call, or (0, 0) with nothing changed when
      there are no candidates. */
  function GroupFacesInBlocks(s: Store, threshold: real, chunk: seq<PairKey>, choose: Chooser): (r: Round)
    requires IsGroupingChunk(s, threshold, chunk)
    ensures |Candidates(s, threshold)| == 0 ==> r == Round(s, 0, 0)
    ensures |Candidates(s, threshold)| > 0 ==>
              r.processed == |chunk| && r.count == |Candidates(s, threshold)|
    ensures 0 <= r.processed <= GroupingChunkSize
    ensures r.count > 0 ==> 0 < r.processed <= r.count
    ensures |Candidates(r.store, threshold)| == r.count - r.processed
    ensures r.store.images == s.images && r.store.faces == s.faces
    ensures r.store.pairs.Keys == s.pairs.Keys
    ensures forall k :: k in s.pairs ==> r.store.pairs[k].distance == s.pairs[k].distance
    ensures forall k :: k in s.pairs ==>
              (r.store.pairs[k].grouped <==> s.pairs[k].grouped || k in chunk)
    ensures Clustered(s) ==> Clustered(r.store)
    ensures forall g :: g in r.store.groups ==>
              (g in s.groups && r.store.groups[g] == s.groups[g]) || r.store.groups[g] == Group(None, None)
  {
    var count := |Candidates(s, threshold)|;
    if count == 0 then Round(s, 0, 0)
    else
      var after := FoldPairs(s, chunk, choose);
      FoldPairsTables(s, chunk, choose);
      FoldPairsKeepGroupRows(s, chunk, choose);
      FoldPairsKeepComponents(s, chunk, choose);
      assert Candidates(after, threshold) == Candidates(s, threshold) - set k | k in chunk;
      RemoveDistinct(Candidates(s, threshold), chunk);
      Round(after, |chunk|, count)
  }

  // ---------------------------------------------------------------------
  // Order independence
  // ---------------------------------------------------------------------

  /** Before any pair is folded there are no groups, so the store is
      clustered as soon as no pair joins a face to itself. */
  lemma NothingFoldedYet(s: Store)
    requires s.members == [] && s.groups == map[]
    requires forall k :: k in s.pairs ==> k.0 != k.1 && !s.pairs[k].grouped
    ensures Clustered(s)
  {
    assert FoldedEdges(s) == {};
    forall x, y
      ensures !Graph.Linked(FoldedEdges(s), x, y)
    {
      Graph.NothingLinked(x, y);
    }
  }

  /** Folding the same set of pairs in any order, with any merge survivors,
      gives the same partition of faces into groups. */
  lemma FoldOrderIrrelevant(s: Store, c1: seq<PairKey>, c2: seq<PairKey>, choose1: Chooser, choose2: Chooser)
    requires Clustered(s)
    requires forall i :: 0 <= i < |c1| ==> c1[i] in s.pairs
    requires forall i :: 0 <= i < |c2| ==> c2[i] in s.pairs
    requires forall k :: k in c1 <==> k in c2
    ensures forall x, y :: Together(FoldPairs(s, c1, choose1), x, y)
                       <==> Together(FoldPairs(s, c2, choose2), x, y)
  {
    var r1 := FoldPairs(s, c1, choose1);
    var r2 := FoldPairs(s, c2, choose2);
    FoldPairsTables(s, c1, choose1);
    FoldPairsTables(s, c2, choose2);
    FoldPairsKeepComponents(s, c1, choose1);
    FoldPairsKeepComponents(s, c2, choose2);
    assert FoldedEdges(r1) == FoldedEdges(r2);
  }

  lemma BridgingChunk(chunk: seq<PairKey>)
    requires IsGroupingChunk(BridgingStore(), DefaultThreshold, chunk)
    ensures |chunk| == 2 && |Candidates(BridgingStore(), DefaultThreshold)| == 2
    ensures forall k :: k in chunk <==> k == (1, 2) || k == (2, 3)
  {
    var s := BridgingStore();
    assert Candidates(s, DefaultThreshold) == {(1, 2), (2, 3)} by {
      assert 0.9 > DefaultThreshold;
    }
    assert (1, 2) in chunk && (2, 3) in chunk by {
      assert |chunk| == 2 && chunk[0] != chunk[1];
    }
  }

  /** Three faces where A-B and B-C are within the threshold but A-C is not:
      one call groups all three together, whatever the row order of the
      query and whatever survivor the merge keeps. */
  lemma TransitiveBridging(chunk: seq<PairKey>, choose: Chooser)
    requires IsGroupingChunk(BridgingStore(), DefaultThreshold, chunk)
    ensures var r := GroupFacesInBlocks(BridgingStore(), DefaultThreshold, chunk, choose);
            && r.processed == 2 && r.count == 2
            && Together(r.store, 1, 2) && Together(r.store, 2, 3) && Together(r.store, 1, 3)
            && !r.store.pairs[(1, 3)].grouped
  {
    var r := GroupFacesInBlocks(BridgingStore(), DefaultThreshold, chunk, choose);
    BridgingFolds(chunk, choose);
    BridgingLinks();
  }

  /** The call folds exactly the two close pairs and keeps the invariant. */
  lemma BridgingFolds(chunk: seq<PairKey>, choose: Chooser)
    requires IsGroupingChunk(BridgingStore(), DefaultThreshold, chunk)
    ensures var r := GroupFacesInBlocks(BridgingStore(), DefaultThreshold, chunk, choose);
            && r.processed == 2 && r.count == 2
            && FoldedEdges(r.store) == {(1, 2), (2, 3)}
            && Clustered(r.store)
            && (1, 3) in r.store.pairs
  {
    var s := BridgingStore();
    BridgingChunk(chunk);
    NothingFoldedYet(s);
    assert s.pairs.Keys == {(1, 2), (2, 3), (1, 3)};
  }

  /** In the chain 1-2-3 every two of the faces are linked. */
  lemma BridgingLinks()
    ensures var e: set<PairKey> := {(1, 2), (2, 3)};
            Graph.Linked(e, 1, 2) && Graph.Linked(e, 2, 3) && Graph.Linked(e, 1, 3)
  {
    var e: set<PairKey> := {(1, 2), (2, 3)};
    assert Graph.IsWalk(e, [1, 2]);
    assert Graph.IsWalk(e, [2, 3]);
    assert Graph.IsWalk(e, [1, 2, 3]);
  }

  /** The store of that scenario: faces 1, 2 and 3 with distances 0.3 (1-2),
      0.4 (2-3) and 0.9 (1-3), nothing grouped yet. */
  function BridgingStore(): Store
  {
    Store(map[], map[],
          map[(1, 2) := Pair(Some(0.3), false), (2, 3) := Pair(Some(0.4), false),
              (1, 3) := Pair(Some(0.9), false)],
          map[], [])
  }
}

=== FILE: driver.dfy ===
/** The command line front end's loops: each chunked stage is called again
    while its last call processed something.

    The database answers each `limit` query with some rows of the matching
    set. Here `PickChunk` takes any such rows, so the results hold whatever
    rows the database returns. The loops end because every call with work
    left shrinks the set it works on.
 */
module Driver {
  import opened Store
  import opened Clustering
  import Graph
  import Pairs
  import Analysis

  /** Some `limit` distinct elements of `pool`, or all of them when there
      are fewer. */
  method PickChunk<T(==)>(pool: set<T>, limit: nat) returns (chunk: seq<T>)
    ensures Distinct(chunk)
    ensures forall i :: 0 <= i < |chunk| ==> chunk[i] in pool
    ensures |chunk| == Min(limit, |pool|)
  {
    chunk := [];
    var rest := pool;
    while |chunk| < limit && rest != {}
      invariant Distinct(chunk)
      invariant forall i :: 0 <= i < |chunk| ==> chunk[i] in pool && chunk[i] !in rest
      invariant rest <= pool
      invariant |chunk| + |rest| == |pool|
      invariant |chunk| <= limit
      decreases |rest|
    {
      var x :| x in rest;
      chunk := chunk + [x];
      rest := rest - {x};
    }
  }

  // ---------------------------------------------------------------------
  // Analysing every image
  // ---------------------------------------------------------------------

  /** `cmd_parse_images`: analyses chunks until none is pending. */
  method AnalyseAll(s: Store, load: Analysis.Loader) returns (r: Store)
    ensures Analysis.Pending(r) == {}
    ensures r.pairs == s.pairs && r.groups == s.groups && r.members == s.members
    ensures r.images.Keys == s.images.Keys
    ensures forall f :: f in s.faces ==> f in r.faces && r.faces[f] == s.faces[f]
    ensures Analysis.FacesIndexed(s) ==> Analysis.FacesIndexed(r)
  {
    r := s;
    var processed: nat := 1;
    while processed != 0
      invariant processed == 0 ==> Analysis.Pending(r) == {}
      invariant r.pairs == s.pairs && r.groups == s.groups && r.members == s.members
      invariant r.images.Keys == s.images.Keys
      invariant forall f :: f in s.faces ==> f in r.faces && r.faces[f] == s.faces[f]
      invariant Analysis.FacesIndexed(s) ==> Analysis.FacesIndexed(r)
      decreases |Analysis.Pending(r)|, processed
    {
      var chunk := PickChunk(Analysis.Pending(r), Analysis.AnalysisChunkSize);
      var round := Analysis.AnalyseImagesInBlocks(r, chunk, load);
      processed := round.processed;
      r := round.store;
    }
  }

  // ---------------------------------------------------------------------
  // Seeding and measuring every pair
  // ---------------------------------------------------------------------

  /** `cmd_pair`: seeds the pairs, then measures chunks until no pair is
      left without a distance. */
  method PairAll(s: Store, ids: seq<FaceId>, dist: Pairs.Metric) returns (r: Store)
    requires Pairs.ListsFaces(s, ids) && Pairs.PairsHaveFaces(s)
    ensures Pairs.Unmeasured(r) == {}
    ensures r == s.(pairs := r.pairs)
    ensures forall k :: k in s.pairs ==> k in r.pairs && r.pairs[k].grouped == s.pairs[k].grouped
    ensures forall k :: k in r.pairs && k !in s.pairs ==> !r.pairs[k].grouped && k.0 != k.1
    ensures forall a, b :: a in s.faces && b in s.faces && a != b ==>
              (a, b) in r.pairs || (b, a) in r.pairs
    ensures forall k :: k in r.pairs ==> k.0 in r.faces && k.1 in r.faces
    ensures forall k :: k in s.pairs && s.pairs[k].distance.Some? ==> r.pairs[k].distance == s.pairs[k].distance
    ensures forall k :: k in r.pairs && (k !in s.pairs || s.pairs[k].distance.None?) ==>
              r.pairs[k].distance == Some(Pairs.Measure(r, k, dist))
  {
    r := Pairs.InsertEmptyPairs(s, ids);
    var seeded := r;
    var processed: nat := 1;
    while processed != 0
      invariant Pairs.PairsHaveFaces(r)
      invariant processed == 0 ==> Pairs.Unmeasured(r) == {}
      invariant r == s.(pairs := r.pairs)
      invariant r.pairs.Keys == seeded.pairs.Keys
      invariant forall k :: k in seeded.pairs ==> r.pairs[k].grouped == seeded.pairs[k].grouped
      invariant MeasuredSoFar(seeded, r, dist)
      decreases |Pairs.Unmeasured(r)|, processed
    {
      var chunk := PickChunk(Pairs.Measurable(r), Pairs.DistanceChunkSize);
      var round := Pairs.PairFacesInBlocks(r, chunk, dist);
      MeasuringStep(seeded, r, chunk, dist);
      processed := round.processed;
      r := round.store;
    }
    MeasuringEnds(s, seeded, r, dist);
  }

  /** What the measuring loop keeps: a distance set before is kept, and
      every distance it set is the metric of the pair's two faces. */
  ghost predicate MeasuredSoFar(seeded: Store, r: Store, dist: Pairs.Metric)
  {
    && r.faces == seeded.faces && r.pairs.Keys == seeded.pairs.Keys
    && Pairs.PairsHaveFaces(r)
    && (forall k :: k in seeded.pairs && seeded.pairs[k].distance.Some? ==>
          r.pairs[k].distance == seeded.pairs[k].distance)
    && (forall k :: k in r.pairs && r.pairs[k].distance.Some? && seeded.pairs[k].distance.None? ==>
          r.pairs[k].distance == Some(Pairs.Measure(r, k, dist)))
  }

  /** One call of the distance engine keeps `MeasuredSoFar`. */
  lemma MeasuringStep(seeded: Store, r: Store, chunk: seq<PairKey>, dist: Pairs.Metric)
    requires MeasuredSoFar(seeded, r, dist) && Pairs.IsDistanceChunk(r, chunk)
    ensures MeasuredSoFar(seeded, Pairs.PairFacesInBlocks(r, chunk, dist).store, dist)
  {
    var n := Pairs.PairFacesInBlocks(r, chunk, dist).store;
    assert n.faces == r.faces;
    forall k | k in n.pairs && n.pairs[k].distance.Some? && seeded.pairs[k].distance.None?
      ensures n.pairs[k].distance == Some(Pairs.Measure(n, k, dist))
    {
      if k !in chunk {
        assert n.pairs[k] == r.pairs[k];
      }
    }
    forall k | k in seeded.pairs && seeded.pairs[k].distance.Some?
      ensures n.pairs[k].distance == seeded.pairs[k].distance
    {
      assert k !in Pairs.Measurable(r);
    }
  }

  /** When the loop stops, seeding's new rows and the old unmeasured rows
      all hold the metric, and the old measured rows are as they were. */
  lemma MeasuringEnds(s: Store, seeded: Store, r: Store, dist: Pairs.Metric)
    requires seeded == s.(pairs := seeded.pairs)
    requires forall k :: k in s.pairs ==> k in seeded.pairs && seeded.pairs[k] == s.pairs[k]
    requires forall k :: k in seeded.pairs && k !in s.pairs ==> seeded.pairs[k].distance.None?
    requires MeasuredSoFar(seeded, r, dist) && Pairs.Unmeasured(r) == {}
    ensures forall k :: k in s.pairs && s.pairs[k].distance.Some? ==> r.pairs[k].distance == s.pairs[k].distance
    ensures forall k :: k in r.pairs && (k !in s.pairs || s.pairs[k].distance.None?) ==>
              r.pairs[k].distance == Some(Pairs.Measure(r, k, dist))
  {
    forall k | k in r.pairs
      ensures r.pairs[k].distance.Some?
    {
      assert k !in Pairs.Unmeasured(r);
    }
  }

  // ---------------------------------------------------------------------
  // Grouping every close pair
  // ---------------------------------------------------------------------

  /** The pairs whose distance is at most the threshold, folded or not. */
  function Close(s: Store, threshold: real): set<PairKey>
  {
    set k | k in s.pairs && s.pairs[k].distance.Some? && s.pairs[k].distance.value <= threshold
  }

  /** What the grouping loop keeps between calls: only `grouped` flags,
      memberships and groups have changed, the folded pairs are the ones
      folded at the start plus the close pairs no longer candidates, and
      `rounds` calls account for the candidates used up so far. */
  ghost predicate Progress(s: Store, r: Store, threshold: real, rounds: nat)
  {
    && r.images == s.images && r.faces == s.faces && r.pairs.Keys == s.pairs.Keys
    && (forall k :: k in s.pairs ==> r.pairs[k].distance == s.pairs[k].distance)
    && FoldedEdges(r) == FoldedEdges(s) + (Close(s, threshold) - Candidates(r, threshold))
    && Clustered(r)
    && GroupRowsKept(s, r)
    && rounds <= |Candidates(s, threshold)| - |Candidates(r, threshold)| <= rounds * GroupingChunkSize
  }

  /** `cmd_group`: folds chunks until no candidate is left. The groups are
      then exactly the components of the pairs that were folded before
      plus every close pair, whichever chunks the database returned and
      whichever group survived each merge. */
  method GroupAll(s: Store, threshold: real, choose: Chooser) returns (r: Store, rounds: nat)
    requires Clustered(s)
    ensures Candidates(r, threshold) == {}
    ensures r.images == s.images && r.faces == s.faces && r.pairs.Keys == s.pairs.Keys
    ensures forall k :: k in s.pairs ==> r.pairs[k].distance == s.pairs[k].distance
    ensures FoldedEdges(r) == FoldedEdges(s) + Close(s, threshold)
    ensures Clustered(r)
    ensures forall x, y :: Together(r, x, y) <==> Graph.Linked(FoldedEdges(s) + Close(s, threshold), x, y)
    ensures rounds <= |Candidates(s, threshold)| <= rounds * GroupingChunkSize
    ensures FoldedEdges(s) <= Close(s, threshold) ==>
              forall x, y :: Together(r, x, y) <==> Graph.Linked(Close(s, threshold), x, y)
    ensures forall g :: g in r.groups ==>
              (g in s.groups && r.groups[g] == s.groups[g]) || r.groups[g] == Group(None, None)
  {
    r := s;
    rounds := 0;
    var processed: nat := 1;
    GroupingStarts(s, threshold);
    while processed != 0
      invariant processed == 0 ==> Candidates(r, threshold) == {}
      invariant Progress(s, r, threshold, rounds)
      decreases |Candidates(r, threshold)|, processed
    {
      var chunk := PickChunk(Candidates(r, threshold), GroupingChunkSize);
      var round := GroupFacesInBlocks(r, threshold, chunk, choose);
      GroupingStep(s, r, threshold, chunk, choose, rounds);
      processed := round.processed;
      if processed != 0 {
        rounds := rounds + 1;
      }
      r := round.store;
    }
    GroupingEnds(s, r, threshold, rounds);
    if FoldedEdges(s) <= Close(s, threshold) {
      assert FoldedEdges(s) + Close(s, threshold) == Close(s, threshold);
    }
  }

  // ---------------------------------------------------------------------
  // A fresh database
  // ---------------------------------------------------------------------

  /** `cmd_init` and `cmd_read_folder` leave a database holding only image
      rows. Then `cmd_parse_images`, `cmd_pair` and `cmd_group` run with one
      threshold. Every image is analysed, every pair is measured, and the
      groups are exactly the connected components of the close pairs,
      whichever chunks the database returned and whichever group survived
      each merge. */
  method FreshPipeline(images: map<ImageId, Image>, load: Analysis.Loader, dist: Pairs.Metric,
                       threshold: real, choose: Chooser) returns (r: Store)
    ensures r.images.Keys == images.Keys
    ensures Analysis.Pending(r) == {} && Pairs.Unmeasured(r) == {} && Candidates(r, threshold) == {}
    ensures forall a, b :: a in r.faces && b in r.faces && a != b ==> (a, b) in r.pairs || (b, a) in r.pairs
    ensures Clustered(r)
    ensures forall x, y :: Together(r, x, y) <==> Graph.Linked(Close(r, threshold), x, y)
  {
    var paired := FreshPairs(images, load, dist);
    var rounds;
    r, rounds := GroupAll(paired, threshold, choose);
    GroupingKeepsStages(paired, r, threshold);
  }

  /** The first two stages on a fresh database: every image analysed, every
      two faces paired and measured, and nothing folded yet. */
  method FreshPairs(images: map<ImageId, Image>, load: Analysis.Loader, dist: Pairs.Metric)
    returns (paired: Store)
    ensures paired.images.Keys == images.Keys
    ensures Analysis.Pending(paired) == {} && Pairs.Unmeasured(paired) == {}
    ensures forall a, b :: a in paired.faces && b in paired.faces && a != b ==>
              (a, b) in paired.pairs || (b, a) in paired.pairs
    ensures FoldedEdges(paired) == {} && Clustered(paired)
  {
    var loaded := EmptyStore.(images := images);
    var analysed := AnalyseAll(loaded, load);
    var ids := PickChunk(analysed.faces.Keys, |analysed.faces.Keys|);
    PickedAll(analysed.faces.Keys, ids);
    paired := PairAll(analysed, ids, dist);
    NothingFoldedYet(paired);
    assert FoldedEdges(paired) == {};
  }

  /** Grouping leaves the analysis and distance stages' work as it was. */
  lemma GroupingKeepsStages(p: Store, r: Store, threshold: real)
    requires r.images == p.images && r.faces == p.faces && r.pairs.Keys == p.pairs.Keys
    requires forall k :: k in p.pairs ==> r.pairs[k].distance == p.pairs[k].distance
    ensures Analysis.Pending(r) == Analysis.Pending(p)
    ensures Pairs.Unmeasured(r) == Pairs.Unmeasured(p)
    ensures Close(r, threshold) == Close(p, threshold)
  {
  }

  /** Distinct picks, as many as the pool holds, are the whole pool. */
  lemma PickedAll<T>(pool: set<T>, xs: seq<T>)
    requires Distinct(xs) && |xs| == |pool|
    requires forall i :: 0 <= i < |xs| ==> xs[i] in pool
    ensures forall x :: x in pool ==> x in xs
  {
    RemoveDistinct(pool, xs);
    assert pool - (set x | x in xs) == {};
    forall x | x in pool
      ensures x in xs
    {
      assert x !in pool - (set x | x in xs);
    }
  }

  lemma GroupingStarts(s: Store, threshold: real)
    requires Clustered(s)
    ensures Progress(s, s, threshold, 0)
  {
    assert Close(s, threshold) - Candidates(s, threshold) <= FoldedEdges(s);
  }

  /** One call keeps the loop's invariant and, when it folds anything,
      uses up between one and ten candidates. */
  lemma GroupingStep(s: Store, r: Store, threshold: real, chunk: seq<PairKey>, choose: Chooser, rounds: nat)
    requires Progress(s, r, threshold, rounds)
    requires IsGroupingChunk(r, threshold, chunk)
    ensures var round := GroupFacesInBlocks(r, threshold, chunk, choose);
            && (round.processed == 0 ==> Candidates(round.store, threshold) == {})
            && (round.processed == 0 ==> round.store == r)
            && (round.processed != 0 ==>
                  && |Candidates(round.store, threshold)| < |Candidates(r, threshold)|
                  && Progress(s, round.store, threshold, rounds + 1))
  {
    var round := GroupFacesInBlocks(r, threshold, chunk, choose);
    var n := round.store;
    if round.processed != 0 {
      var taken := set k | k in chunk;
      assert Close(r, threshold) == Close(s, threshold);
      assert Candidates(n, threshold) == Candidates(r, threshold) - taken;
      assert taken <= Candidates(r, threshold);
      FoldedGrows(r, n, chunk);
      FoldedSoFar(FoldedEdges(s), FoldedEdges(r), FoldedEdges(n), Close(s, threshold),
                  Candidates(r, threshold), Candidates(n, threshold), taken);
      assert forall k :: k in s.pairs ==> n.pairs[k].distance == s.pairs[k].distance;
    }
  }

  /** The folded pairs grow by exactly the pairs whose flag was set. */
  lemma FoldedGrows(r: Store, n: Store, chunk: seq<PairKey>)
    requires n.pairs.Keys == r.pairs.Keys
    requires forall i :: 0 <= i < |chunk| ==> chunk[i] in r.pairs
    requires forall k :: k in r.pairs ==> (n.pairs[k].grouped <==> r.pairs[k].grouped || k in chunk)
    ensures FoldedEdges(n) == FoldedEdges(r) + set k | k in chunk
  {
    forall k | k in chunk
      ensures k in FoldedEdges(n)
    {
      var i :| 0 <= i < |chunk| && chunk[i] == k;
    }
  }

  /** The set algebra of one step: folding `taken` out of the candidates
      moves it into the folded pairs. */
  lemma FoldedSoFar(start: set<PairKey>, before: set<PairKey>, after: set<PairKey>, close: set<PairKey>,
                    left: set<PairKey>, left': set<PairKey>, taken: set<PairKey>)
    requires before == start + (close - left)
    requires after == before + taken
    requires left' == left - taken && taken <= left && left <= close
    ensures after == start + (close - left')
  {
  }

  lemma GroupingEnds(s: Store, r: Store, threshold: real, rounds: nat)
    requires Progress(s, r, threshold, rounds) && Candidates(r, threshold) == {}
    ensures FoldedEdges(r) == FoldedEdges(s) + Close(s, threshold)
    ensures forall x, y :: Together(r, x, y) <==> Graph.Linked(FoldedEdges(s) + Close(s, threshold), x, y)
  {
  }
}

=== FILE: graph.dfy ===
/** Undirected reachability over a finite edge set.

    This is the reference definition the clustering engine is measured
    against: two faces should share a group exactly when a walk of folded
    pairs joins them. A walk depends only on the SET of edges, so anything
    proved equal to `Linked` cannot depend on the order of the edges.
 */
module Graph {

  type Vertex = int
  type Edge = (Vertex, Vertex)

  /** An edge joins its two ends in either direction. */
  predicate Adjacent(e: set<Edge>, u: Vertex, v: Vertex)
  {
    (u, v) in e || (v, u) in e
  }

  /** `p` is a walk: every consecutive pair of its vertices is adjacent. */
  ghost predicate IsWalk(e: set<Edge>, p: seq<Vertex>)
  {
    |p| >= 1 && forall i :: 0 <= i < |p| - 1 ==> Adjacent(e, p[i], p[i + 1])
  }

  /** `x` and `y` are joined by a walk of at least one edge. This is the
      transitive closure of adjacency. It holds for `x == y` exactly when
      some edge touches `x`. */
  ghost predicate Linked(e: set<Edge>, x: Vertex, y: Vertex)
  {
    exists p :: IsWalk(e, p) && |p| >= 2 && p[0] == x && p[|p| - 1] == y
  }

  /** The reflexive-transitive closure of adjacency. */
  ghost predicate Reaches(e: set<Edge>, x: Vertex, y: Vertex)
  {
    x == y || Linked(e, x, y)
  }

  /** `v` lies in the component of `a` or in the component of `b`. */
  ghost predicate NearEither(e: set<Edge>, a: Vertex, b: Vertex, v: Vertex)
  {
    Reaches(e, v, a) || Reaches(e, v, b)
  }

  lemma WalkReaches(e: set<Edge>, p: seq<Vertex>)
    requires IsWalk(e, p)
    ensures Reaches(e, p[0], p[|p| - 1])
  {
    if |p| >= 2 {
      assert IsWalk(e, p) && |p| >= 2;
    }
  }

  lemma ReachesWalk(e: set<Edge>, x: Vertex, y: Vertex) returns (p: seq<Vertex>)
    requires Reaches(e, x, y)
    ensures IsWalk(e, p) && p[0] == x && p[|p| - 1] == y
  {
    if x == y {
      p := [x];
    } else {
      p :| IsWalk(e, p) && |p| >= 2 && p[0] == x && p[|p| - 1] == y;
    }
  }

  lemma {:induction false} WalkJoin(e: set<Edge>, p: seq<Vertex>, q: seq<Vertex>)
    requires IsWalk(e, p) && IsWalk(e, q) && p[|p| - 1] == q[0]
    ensures IsWalk(e, p + q[1..])
    ensures |p + q[1..]| == |p| + |q| - 1
  {
    var w := p + q[1..];
    forall i | 0 <= i < |w| - 1
      ensures Adjacent(e, w[i], w[i + 1])
    {
      if i < |p| - 1 {
        assert w[i] == p[i] && w[i + 1] == p[i + 1];
      } else {
        var j := i - (|p| - 1);
        assert w[i] == q[j] && w[i + 1] == q[j + 1];
      }
    }
  }

  lemma {:induction false} WalkReverse(e: set<Edge>, p: seq<Vertex>) returns (q: seq<Vertex>)
    requires IsWalk(e, p)
    ensures IsWalk(e, q) && |q| == |p| && q[0] == p[|p| - 1] && q[|q| - 1] == p[0]
  {
    q := seq(|p|, i requires 0 <= i < |p| => p[|p| - 1 - i]);
    forall i | 0 <= i < |q| - 1
      ensures Adjacent(e, q[i], q[i + 1])
    {
      var j := |p| - 2 - i;
      assert q[i] == p[j + 1] && q[i + 1] == p[j];
      assert Adjacent(e, p[j], p[j + 1]);
    }
  }

  lemma ReachesSymmetric(e: set<Edge>, x: Vertex, y: Vertex)
    requires Reaches(e, x, y)
    ensures Reaches(e, y, x)
  {
    var p := ReachesWalk(e, x, y);
    var q := WalkReverse(e, p);
    WalkReaches(e, q);
  }

  lemma LinkedSymmetric(e: set<Edge>, x: Vertex, y: Vertex)
    requires Linked(e, x, y)
    ensures Linked(e, y, x)
  {
    var p :| IsWalk(e, p) && |p| >= 2 && p[0] == x && p[|p| - 1] == y;
    var q := WalkReverse(e, p);
    assert IsWalk(e, q) && |q| >= 2;
  }

  lemma ReachesTransitive(e: set<Edge>, x: Vertex, y: Vertex, z: Vertex)
    requires Reaches(e, x, y) && Reaches(e, y, z)
    ensures Reaches(e, x, z)
  {
    var p := ReachesWalk(e, x, y);
    var q := ReachesWalk(e, y, z);
    WalkJoin(e, p, q);
    WalkReaches(e, p + q[1..]);
  }

  /** A walk that passes through a linked stretch is itself linked. */
  lemma LinkedThrough(e: set<Edge>, x: Vertex, u: Vertex, v: Vertex, y: Vertex)
    requires Reaches(e, x, u) && Linked(e, u, v) && Reaches(e, v, y)
    ensures Linked(e, x, y)
  {
    var p := ReachesWalk(e, x, u);
    var m :| IsWalk(e, m) && |m| >= 2 && m[0] == u && m[|m| - 1] == v;
    var q := ReachesWalk(e, v, y);
    WalkJoin(e, p, m);
    var pm := p + m[1..];
    WalkJoin(e, pm, q);
    assert IsWalk(e, pm + q[1..]) && |pm + q[1..]| >= 2;
  }

  lemma {:induction false} WalkGrows(e: set<Edge>, f: set<Edge>, p: seq<Vertex>)
    requires e <= f && IsWalk(e, p)
    ensures IsWalk(f, p)
  {
    forall i | 0 <= i < |p| - 1
      ensures Adjacent(f, p[i], p[i + 1])
    {
      assert Adjacent(e, p[i], p[i + 1]);
    }
  }

  /** Adding edges never disconnects anything. */
  lemma LinkedGrows(e: set<Edge>, f: set<Edge>, x: Vertex, y: Vertex)
    requires e <= f && Linked(e, x, y)
    ensures Linked(f, x, y)
  {
    var p :| IsWalk(e, p) && |p| >= 2 && p[0] == x && p[|p| - 1] == y;
    WalkGrows(e, f, p);
  }

  lemma ReachesGrows(e: set<Edge>, f: set<Edge>, x: Vertex, y: Vertex)
    requires e <= f && Reaches(e, x, y)
    ensures Reaches(f, x, y)
  {
    if x != y {
      LinkedGrows(e, f, x, y);
    }
  }

  /** With no edges nothing is linked, not even a vertex to itself. */
  lemma NothingLinked(x: Vertex, y: Vertex)
    ensures !Linked({}, x, y)
  {
    forall p | IsWalk({}, p)
      ensures |p| < 2
    {
      assert 0 < |p| - 1 ==> Adjacent({}, p[0], p[1]);
    }
  }

  /** A walk over `e` plus the edge `(a, b)` either avoids the new edge or
      starts and ends in the union of the components of `a` and `b`. */
  lemma {:induction false} WalkSplit(e: set<Edge>, a: Vertex, b: Vertex, p: seq<Vertex>)
    requires IsWalk(e + {(a, b)}, p)
    ensures IsWalk(e, p) || (NearEither(e, a, b, p[0]) && NearEither(e, a, b, p[|p| - 1]))
    decreases |p|
  {
    if |p| == 1 {
      assert IsWalk(e, p);
    } else {
      var q := p[..|p| - 1];
      var w, z := p[|p| - 2], p[|p| - 1];
      assert IsWalk(e + {(a, b)}, q) by {
        forall i | 0 <= i < |q| - 1
          ensures Adjacent(e + {(a, b)}, q[i], q[i + 1])
        {
          assert q[i] == p[i] && q[i + 1] == p[i + 1];
        }
      }
      WalkSplit(e, a, b, q);
      assert q[0] == p[0] && q[|q| - 1] == w;
      assert Adjacent(e + {(a, b)}, w, z);
      var newStep := !Adjacent(e, w, z);
      if IsWalk(e, q) {
        if !newStep {
          assert IsWalk(e, p) by {
            forall i | 0 <= i < |p| - 1
              ensures Adjacent(e, p[i], p[i + 1])
            {
              if i < |p| - 2 {
                assert p[i] == q[i] && p[i + 1] == q[i + 1];
              }
            }
          }
        } else {
          assert (w == a && z == b) || (w == b && z == a);
          WalkReaches(e, q);
          assert Reaches(e, p[0], w);
          assert NearEither(e, a, b, p[0]);
          assert Reaches(e, z, z);
        }
      } else {
        assert NearEither(e, a, b, p[0]) && NearEither(e, a, b, w);
        if newStep {
          assert (w == a && z == b) || (w == b && z == a);
          assert Reaches(e, z, z);
        } else {
          assert IsWalk(e, [z, w]);
          WalkReaches(e, [z, w]);
          if Reaches(e, w, a) {
            ReachesTransitive(e, z, w, a);
          } else {
            ReachesTransitive(e, z, w, b);
          }
        }
      }
    }
  }

  /** Adding the edge `(a, b)` merges the components of `a` and `b` and
      changes nothing else: `x` and `y` are linked afterwards exactly when
      they were linked before or both lie in the two merged components. */
  lemma AddEdge(e: set<Edge>, a: Vertex, b: Vertex, x: Vertex, y: Vertex)
    ensures Linked(e + {(a, b)}, x, y)
        <==> Linked(e, x, y) || (NearEither(e, a, b, x) && NearEither(e, a, b, y))
  {
    var f := e + {(a, b)};
    if Linked(f, x, y) {
      var p :| IsWalk(f, p) && |p| >= 2 && p[0] == x && p[|p| - 1] == y;
      WalkSplit(e, a, b, p);
      if IsWalk(e, p) {
        assert Linked(e, x, y);
      }
    }
    if Linked(e, x, y) {
      LinkedGrows(e, f, x, y);
    }
    if NearEither(e, a, b, x) && NearEither(e, a, b, y) {
      // Each of x and y reaches a in f, and a reaches itself over b.
      assert IsWalk(f, [b, a]);
      WalkReaches(f, [b, a]);
      assert Reaches(f, b, a);
      assert IsWalk(f, [a, b, a]);
      assert Linked(f, a, a);
      assert Reaches(f, x, a) by {
        if Reaches(e, x, a) {
          ReachesGrows(e, f, x, a);
        } else {
          ReachesGrows(e, f, x, b);
          ReachesTransitive(f, x, b, a);
        }
      }
      assert Reaches(f, y, a) by {
        if Reaches(e, y, a) {
          ReachesGrows(e, f, y, a);
        } else {
          ReachesGrows(e, f, y, b);
          ReachesTransitive(f, y, b, a);
        }
      }
      ReachesSymmetric(f, y, a);
      LinkedThrough(f, x, a, a, y);
    }
  }
}

=== FILE: pairs.dfy ===
/** Pair seeding (`insert_empty_pairs`) and the pairwise distance engine
    (`pair_faces_in_blocks`).

    Seeding writes one `pairs` row for every 2-combination of face ids. The
    unique index on `(face1, face2)` together with `INSERT OR IGNORE` keeps
    existing rows as they are, so seeding again adds nothing. The distance
    engine fills in NULL distances in chunks. The distance itself is an
    abstract function of the two encodings.
 */
module Pairs {
  import opened Store

  /** `chunk_size` of `pair_faces_in_blocks`. */
  const DistanceChunkSize := 500

  // ---------------------------------------------------------------------
  // Seeding
  // ---------------------------------------------------------------------

  /** `itertools.combinations(ids, 2)`: each `(ids[i], ids[j])` with `i < j`,
      in index order. */
  function Combinations(ids: seq<FaceId>): (cs: seq<PairKey>)
    ensures |cs| == |ids| * (|ids| - 1) / 2
  {
    if |ids| == 0 then []
    else
      var n := |ids|;
      assert (n - 1) * (n - 2) + 2 * (n - 1) == n * (n - 1);
      seq(n - 1, j requires 0 <= j < n - 1 => (ids[0], ids[j + 1])) + Combinations(ids[1..])
  }

  /** A pair is a combination exactly when its first id comes before its
      second id in `ids`. */
  lemma {:induction false} CombinationsMembers(ids: seq<FaceId>, a: FaceId, b: FaceId)
    ensures (a, b) in Combinations(ids)
        <==> exists i, j :: 0 <= i < j < |ids| && ids[i] == a && ids[j] == b
  {
    if |ids| > 0 {
      var n := |ids|;
      var head := seq(n - 1, j requires 0 <= j < n - 1 => (ids[0], ids[j + 1]));
      var rest := ids[1..];
      assert Combinations(ids) == head + Combinations(rest);
      CombinationsMembers(rest, a, b);
      if (a, b) in Combinations(ids) {
        if (a, b) in head {
          var j :| 0 <= j < n - 1 && head[j] == (a, b);
          assert ids[0] == a && ids[j + 1] == b;
        } else {
          var i, j :| 0 <= i < j < |rest| && rest[i] == a && rest[j] == b;
          assert ids[i + 1] == a && ids[j + 1] == b;
        }
      }
      if exists i, j :: 0 <= i < j < |ids| && ids[i] == a && ids[j] == b {
        var i, j :| 0 <= i < j < |ids| && ids[i] == a && ids[j] == b;
        if i == 0 {
          assert head[j - 1] == (a, b);
        } else {
          assert rest[i - 1] == a && rest[j - 1] == b;
        }
      }
    }
  }

  /** `ids` is what `select id from faces` returns: every face id once. */
  ghost predicate ListsFaces(s: Store, ids: seq<FaceId>)
  {
    && Distinct(ids)
    && (forall i :: 0 <= i < |ids| ==> ids[i] in s.faces)
    && (forall f :: f in s.faces ==> f in ids)
  }

  /** `insert_empty_pairs`. Every combination not already stored becomes a
      row with a NULL distance and `grouped = 0`. Stored rows are kept. */
  function InsertEmptyPairs(s: Store, ids: seq<FaceId>): (r: Store)
    requires ListsFaces(s, ids)
    ensures r == s.(pairs := r.pairs)
    ensures forall k :: k in s.pairs ==> k in r.pairs && r.pairs[k] == s.pairs[k]
    ensures forall k :: k in r.pairs && k !in s.pairs ==>
              && r.pairs[k] == Pair(None, false)
              && k.0 in s.faces && k.1 in s.faces && k.0 != k.1
    ensures forall a, b :: a in s.faces && b in s.faces && a != b ==>
              (a, b) in r.pairs || (b, a) in r.pairs
  {
    var combos := Combinations(ids);
    CombinationsAreFacePairs(s, ids);
    s.(pairs := map k | k in s.pairs.Keys + (set c | c in combos) ::
                  if k in s.pairs then s.pairs[k] else Pair(None, false))
  }

  lemma CombinationsAreFacePairs(s: Store, ids: seq<FaceId>)
    requires ListsFaces(s, ids)
    ensures forall k :: k in Combinations(ids) ==> k.0 in s.faces && k.1 in s.faces && k.0 != k.1
    ensures forall a, b :: a in s.faces && b in s.faces && a != b ==>
              (a, b) in Combinations(ids) || (b, a) in Combinations(ids)
  {
    forall k | k in Combinations(ids)
      ensures k.0 in s.faces && k.1 in s.faces && k.0 != k.1
    {
      CombinationsMembers(ids, k.0, k.1);
    }
    forall a, b | a in s.faces && b in s.faces && a != b
      ensures (a, b) in Combinations(ids) || (b, a) in Combinations(ids)
    {
      var i :| 0 <= i < |ids| && ids[i] == a;
      var j :| 0 <= j < |ids| && ids[j] == b;
      CombinationsMembers(ids, a, b);
      CombinationsMembers(ids, b, a);
    }
  }

  /** Seeding twice is seeding once: the second run adds no rows. */
  lemma SeedingIsIdempotent(s: Store, ids: seq<FaceId>)
    requires ListsFaces(s, ids)
    ensures InsertEmptyPairs(InsertEmptyPairs(s, ids), ids) == InsertEmptyPairs(s, ids)
  {
    var r := InsertEmptyPairs(s, ids);
    var r2 := InsertEmptyPairs(r, ids);
    CombinationsAreFacePairs(s, ids);
    assert r2.pairs.Keys == r.pairs.Keys;
  }

  predicate Ascending(ids: seq<FaceId>)
  {
    forall i, j :: 0 <= i < j < |ids| ==> ids[i] < ids[j]
  }

  /** With the ids listed in ascending order, which is the rowid order in
      which SQLite scans `faces`, and stored pairs smaller id first, seeding
      keeps every pair smaller id first. So each unordered pair of distinct
      faces has exactly one row. */
  lemma SeedingIsCanonical(s: Store, ids: seq<FaceId>)
    requires ListsFaces(s, ids) && Ascending(ids)
    requires forall k :: k in s.pairs ==> k.0 < k.1
    ensures var r := InsertEmptyPairs(s, ids);
            && (forall k :: k in r.pairs ==> k.0 < k.1)
            && forall a, b :: a in s.faces && b in s.faces && a < b ==>
                 (a, b) in r.pairs && (b, a) !in r.pairs
  {
    var r := InsertEmptyPairs(s, ids);
    forall k | k in r.pairs && k !in s.pairs
      ensures k.0 < k.1
    {
      CombinationsMembers(ids, k.0, k.1);
    }
  }

  // ---------------------------------------------------------------------
  // The distance engine
  // ---------------------------------------------------------------------

  /** `distance is null`: the pairs the distance engine still has to
      measure. A pair with a distance is never among them. */
  function Unmeasured(s: Store): (u: set<PairKey>)
    ensures u <= s.pairs.Keys
    ensures forall k :: k in s.pairs && s.pairs[k].distance.Some? ==> k !in u
  {
    set k | k in s.pairs && s.pairs[k].distance.None?
  }

  /** The unmeasured pairs the query's inner join with `faces` can return:
      both faces must still exist. */
  function Measurable(s: Store): (m: set<PairKey>)
    ensures m <= Unmeasured(s)
    ensures PairsHaveFaces(s) ==> m == Unmeasured(s)
  {
    set k | k in Unmeasured(s) && k.0 in s.faces && k.1 in s.faces
  }

  /** Every pair's faces exist. Seeding establishes this and no stage of
      the pipeline deletes a face. */
  ghost predicate PairsHaveFaces(s: Store)
  {
    forall k :: k in s.pairs ==> k.0 in s.faces && k.1 in s.faces
  }

  /** What the `limit` query may return: distinct measurable pairs, as many
      as the chunk size allows. */
  ghost predicate IsDistanceChunk(s: Store, chunk: seq<PairKey>)
  {
    && Distinct(chunk)
    && (forall i :: 0 <= i < |chunk| ==> chunk[i] in Measurable(s))
    && |chunk| == Min(DistanceChunkSize, |Measurable(s)|)
  }

  /** The distance of two encodings. `pair_faces_in_blocks` uses the
      Euclidean norm of their difference. Here it is a parameter. */
  type Metric = (Encoding, Encoding) -> real

  /** The distance stored for pair `k`: the metric of the two faces'
      encodings. Under a metric that puts every encoding at distance 0 from
      itself, two faces with the same encoding are at distance 0. */
  function Measure(s: Store, k: PairKey, dist: Metric): (d: real)
    requires k.0 in s.faces && k.1 in s.faces
    ensures (forall e :: dist(e, e) == 0.0) && s.faces[k.0].encoding == s.faces[k.1].encoding ==> d == 0.0
  {
    dist(s.faces[k.0].encoding, s.faces[k.1].encoding)
  }

  /** `pair_faces_in_blocks`: measures a chunk of pairs and returns the
      number measured and the count of unmeasured pairs before the call,
      or (0, 0) with nothing changed when every pair has a distance. */
  function PairFacesInBlocks(s: Store, chunk: seq<PairKey>, dist: Metric): (r: Round)
    requires IsDistanceChunk(s, chunk)
    ensures |Unmeasured(s)| == 0 ==> r == Round(s, 0, 0)
    ensures |Unmeasured(s)| > 0 ==> r.processed == |chunk| && r.count == |Unmeasured(s)|
    ensures 0 <= r.processed <= DistanceChunkSize
    ensures |Unmeasured(r.store)| == |Unmeasured(s)| - r.processed
    ensures PairsHaveFaces(s) && |Unmeasured(s)| > 0 ==> r.processed > 0
    ensures r.store == s.(pairs := r.store.pairs)
    ensures r.store.pairs.Keys == s.pairs.Keys
    ensures forall k :: k in s.pairs ==> r.store.pairs[k].grouped == s.pairs[k].grouped
    ensures forall k :: k in s.pairs && k !in chunk ==> r.store.pairs[k] == s.pairs[k]
    ensures forall k :: k in chunk ==>
              && k in s.pairs && k.0 in s.faces && k.1 in s.faces
              && r.store.pairs[k].distance == Some(Measure(s, k, dist))
  {
    var count := |Unmeasured(s)|;
    if count == 0 then
      assert |chunk| == 0 by {
        assert Measurable(s) == {};
      }
      Round(s, 0, 0)
    else
      var pairs := map k | k in s.pairs ::
                     if k in chunk then Pair(Some(Measure(s, k, dist)), s.pairs[k].grouped)
                     else s.pairs[k];
      var after := s.(pairs := pairs);
      assert Unmeasured(after) == Unmeasured(s) - set k | k in chunk;
      RemoveDistinct(Unmeasured(s), chunk);
      assert PairsHaveFaces(s) ==> Measurable(s) == Unmeasured(s);
      Round(after, |chunk|, count)
  }
}

=== FILE: representative.dfy ===
/** Choosing each group's representative face (`find_best_faces`).

    One aggregate query joins `images`, `faces`, `faces2groups` and `groups`.
    For each group it picks the face with the largest truncated integer
    percentage `100 * w * h / width / height`, computed in SQLite's integer
    arithmetic. Each division truncates, so every face covering less than 1%
    of its image scores 0 and all such faces tie; the first of them in
    membership order wins. The chosen face id goes into the group's
    `best_face`.
 */
module Representative {
  import opened Store
  import Clustering
  import Graph

  // ---------------------------------------------------------------------
  // SQLite integer arithmetic
  // ---------------------------------------------------------------------

  function Abs(a: int): nat
  {
    if a < 0 then -a else a
  }

  /** `m` is the floor of `a / b` for a natural `a` and a positive `b`:
      `m * b <= a < (m + 1) * b`. */
  predicate Brackets(m: int, b: int, a: int)
  {
    m * b <= a < (m + 1) * b
  }

  /** SQLite's integer `/`: the quotient rounded toward zero. Dafny's own
      `/` is Euclidean, which differs for negative operands. */
  function TruncDiv(a: int, b: int): (q: int)
    requires b != 0
    ensures Brackets(Abs(q), Abs(b), Abs(a))
    ensures q != 0 ==> ((q > 0) <==> ((a > 0) == (b > 0)))
  {
    var m := Abs(a) / Abs(b);
    DivBounds(Abs(a), Abs(b));
    if (a >= 0) == (b > 0) then m else -m
  }

  /** The Euclidean quotient of naturals brackets the dividend. */
  lemma DivBounds(a: nat, b: nat)
    requires b > 0
    ensures a / b >= 0 && Brackets(a / b, b, a)
  {
    var q, r := a / b, a % b;
    assert a == q * b + r && 0 <= r < b;
    assert (q + 1) * b == q * b + b;
  }

  /** Rounding toward zero is symmetric: negating the dividend negates the
      quotient. Euclidean division does not have this property. */
  lemma TruncDivOdd(a: int, b: int)
    requires b != 0
    ensures TruncDiv(-a, b) == -TruncDiv(a, b)
  {
  }

  // ---------------------------------------------------------------------
  // Scores
  // ---------------------------------------------------------------------

  /** The truncated integer score `100*w*h/width/height` of a face. Each
      division rounds toward zero, so this is not the exact share of the
      image the face covers. It is NULL when the image's width or height is
      NULL or zero: SQLite yields NULL for any arithmetic on NULL and for
      division by zero. */
  function Score(face: Face, img: Image): (sc: Option<int>)
    ensures sc.None? <==> img.width.None? || img.height.None?
                          || img.width == Some(0) || img.height == Some(0)
  {
    match (img.width, img.height)
    case (Some(width), Some(height)) =>
      if width == 0 || height == 0 then None
      else Some(TruncDiv(TruncDiv(100 * face.box.w * face.box.h, width), height))
    case _ => None
  }

  /** A face box that lies within its image scores a percentage: between 0
      and 100. */
  lemma ScoreIsPercent(face: Face, img: Image)
    requires img.width.Some? && img.height.Some?
    requires 0 <= face.box.w <= img.width.value && 0 < img.width.value
    requires 0 <= face.box.h <= img.height.value && 0 < img.height.value
    ensures Score(face, img).Some?
    ensures 0 <= Score(face, img).value <= 100
  {
    var w, h := face.box.w, face.box.h;
    var width, height := img.width.value, img.height.value;
    var a := 100 * w * h;
    assert 0 <= a <= (100 * h) * width by {
      MulMono(w, width, 100 * h);
      assert a == w * (100 * h);
      assert (100 * h) * width == width * (100 * h);
    }
    DivAtMost(a, width, 100 * h);
    var q1 := a / width;
    DivAtMost(q1, height, 100);
  }

  /** Integer division by a positive number keeps an upper bound. */
  lemma DivAtMost(a: int, b: int, c: int)
    requires 0 <= a <= c * b && b > 0
    ensures TruncDiv(a, b) == a / b
    ensures 0 <= a / b <= c
  {
    var q := a / b;
    assert q * b + a % b == a;
    if q > c {
      MulMono(c + 1, q, b);
    }
  }

  lemma MulMono(a: int, b: int, c: int)
    requires 0 <= a <= b && 0 <= c
    ensures 0 <= a * c <= b * c
  {
  }

  /** `max` orders NULL below every number and ignores it. */
  predicate Above(a: Option<int>, b: Option<int>)
  {
    a.Some? && (b.None? || a.value > b.value)
  }

  predicate AtLeast(a: Option<int>, b: Option<int>)
  {
    !Above(b, a)
  }

  // ---------------------------------------------------------------------
  // The join
  // ---------------------------------------------------------------------

  /** The inner joins keep a membership row only when its face and the
      face's image exist. */
  predicate Joinable(s: Store, f: FaceId): (b: bool)
    ensures b ==> f in s.faces
    ensures (forall x :: x in s.faces ==> s.faces[x].image in s.images) ==> (b <==> f in s.faces)
  {
    f in s.faces && s.faces[f].image in s.images
  }

  function FaceScore(s: Store, f: FaceId): Option<int>
    requires Joinable(s, f)
  {
    Score(s.faces[f], s.images[s.faces[f].image])
  }

  /** One row of a group's part of the join. */
  datatype Entrant = Entrant(face: FaceId, score: Option<int>)

  /** A membership row of group `g` that survives the join. */
  predicate Enters(s: Store, m: Membership, g: GroupId)
  {
    m.group == g && Joinable(s, m.face)
  }

  /** `e` is the join's row for some membership row of `g`. */
  ghost predicate Sourced(s: Store, rows: seq<Membership>, g: GroupId, e: Entrant)
  {
    exists i :: 0 <= i < |rows| && Enters(s, rows[i], g)
                && e == Entrant(rows[i].face, FaceScore(s, rows[i].face))
  }

  /** The rows the query groups under `g`, in membership order. */
  function Entrants(s: Store, rows: seq<Membership>, g: GroupId): (es: seq<Entrant>)
    ensures forall i :: 0 <= i < |rows| && Enters(s, rows[i], g) ==>
              Entrant(rows[i].face, FaceScore(s, rows[i].face)) in es
    ensures forall j :: 0 <= j < |es| ==> Sourced(s, rows, g, es[j])
    ensures |es| <= |rows|
  {
    if |rows| == 0 then []
    else
      var rest := Entrants(s, rows[1..], g);
      SourcedTail(s, rows, g, rest);
      assert forall i :: 1 <= i < |rows| ==> rows[i] == rows[1..][i - 1];
      if Enters(s, rows[0], g)
      then
        assert Sourced(s, rows, g, Entrant(rows[0].face, FaceScore(s, rows[0].face)));
        [Entrant(rows[0].face, FaceScore(s, rows[0].face))] + rest
      else rest
  }

  /** A row sourced from the tail of the membership table is sourced from
      the whole table. */
  lemma SourcedTail(s: Store, rows: seq<Membership>, g: GroupId, rest: seq<Entrant>)
    requires |rows| > 0
    requires forall j :: 0 <= j < |rest| ==> Sourced(s, rows[1..], g, rest[j])
    ensures forall j :: 0 <= j < |rest| ==> Sourced(s, rows, g, rest[j])
  {
    forall j | 0 <= j < |rest|
      ensures Sourced(s, rows, g, rest[j])
    {
      assert Sourced(s, rows[1..], g, rest[j]);
      var i :| 0 <= i < |rows[1..]| && Enters(s, rows[1..][i], g)
               && rest[j] == Entrant(rows[1..][i].face, FaceScore(s, rows[1..][i].face));
      assert rows[1..][i] == rows[i + 1];
    }
  }

  /** `max(...)` with its bare column: the first entrant whose score no
      other entrant exceeds. With every score NULL that is the first row. */
  function Best(es: seq<Entrant>): (i: nat)
    requires |es| > 0
    ensures i < |es|
    ensures forall j :: 0 <= j < |es| ==> AtLeast(es[i].score, es[j].score)
    ensures forall j :: 0 <= j < i ==> Above(es[i].score, es[j].score)
  {
    if |es| == 1 then 0
    else
      var k := Best(es[1..]) + 1;
      assert forall j :: 1 <= j < |es| ==> es[j] == es[1..][j - 1];
      if Above(es[k].score, es[0].score) then k else 0
  }

  // ---------------------------------------------------------------------
  // The stage
  // ---------------------------------------------------------------------

  /** The group row after the update. Groups the join does not reach are
      absent from the query's result, so their row is unchanged. */
  function Crowned(s: Store, g: GroupId): (r: Group)
    requires g in s.groups
    ensures r.name == s.groups[g].name
    ensures (exists i :: 0 <= i < |s.members| && Enters(s, s.members[i], g)) ==> r.bestFace.Some?
    ensures r != s.groups[g] ==>
              && r.bestFace.Some?
              && exists i :: 0 <= i < |s.members| && Enters(s, s.members[i], g)
                             && s.members[i].face == r.bestFace.value
  {
    var es := Entrants(s, s.members, g);
    if |es| == 0 then s.groups[g]
    else s.groups[g].(bestFace := Some(es[Best(es)].face))
  }

  /** `find_best_faces`. */
  function FindBestFaces(s: Store): (r: Store)
    ensures r == s.(groups := r.groups)
    ensures r.groups.Keys == s.groups.Keys
    ensures forall g :: g in s.groups ==> r.groups[g].name == s.groups[g].name
    ensures forall g :: g in s.groups && r.groups[g] != s.groups[g] ==>
              exists i :: 0 <= i < |s.members| && Enters(s, s.members[i], g)
  {
    s.(groups := map g | g in s.groups :: Crowned(s, g))
  }

  /** The chosen face of a group is one of its joinable members, and no
      joinable member has a higher truncated score `100*w*h/width/height`.
      A group with a joinable member always gets one. */
  lemma BestFaceScoresHighest(s: Store, g: GroupId)
    requires g in s.groups
    requires exists i :: 0 <= i < |s.members| && Enters(s, s.members[i], g)
    ensures var b := FindBestFaces(s).groups[g].bestFace;
            && b.Some?
            && (exists i :: 0 <= i < |s.members| && Enters(s, s.members[i], g)
                            && s.members[i].face == b.value)
            && forall i :: 0 <= i < |s.members| && Enters(s, s.members[i], g) ==>
                 AtLeast(FaceScore(s, b.value), FaceScore(s, s.members[i].face))
  {
    var es := Entrants(s, s.members, g);
    var k :| 0 <= k < |s.members| && Enters(s, s.members[k], g);
    assert Entrant(s.members[k].face, FaceScore(s, s.members[k].face)) in es;
    var b := Best(es);
    assert es[b] in es;
    forall i | 0 <= i < |s.members| && Enters(s, s.members[i], g)
      ensures AtLeast(es[b].score, FaceScore(s, s.members[i].face))
    {
      var e := Entrant(s.members[i].face, FaceScore(s, s.members[i].face));
      assert e in es;
      var j :| 0 <= j < |es| && es[j] == e;
    }
  }

  /** When every face has one group, the face chosen for a group belongs
      to that group. */
  lemma BestFaceIsMember(s: Store, g: GroupId)
    requires g in s.groups && Clustering.OneGroupPerFace(s.members)
    requires exists i :: 0 <= i < |s.members| && Enters(s, s.members[i], g)
    ensures var b := FindBestFaces(s).groups[g].bestFace;
            b.Some? && Clustering.GroupOfFace(s, b.value) == Some(g)
  {
    BestFaceScoresHighest(s, g);
    var f := FindBestFaces(s).groups[g].bestFace.value;
    var i :| 0 <= i < |s.members| && Enters(s, s.members[i], g) && s.members[i].face == f;
    Clustering.GroupOfRow(s.members, i);
  }

  /** Running the stage again changes nothing: the choice depends on
      memberships, faces and images, none of which it writes. */
  lemma FindBestFacesIdempotent(s: Store)
    ensures FindBestFaces(FindBestFaces(s)) == FindBestFaces(s)
  {
    var r := FindBestFaces(s);
    assert forall g :: Entrants(r, r.members, g) == Entrants(s, s.members, g) by {
      forall g
        ensures Entrants(r, r.members, g) == Entrants(s, s.members, g)
      {
        EntrantsIgnoreGroups(s, r, s.members, g);
      }
    }
  }

  lemma {:induction false} EntrantsIgnoreGroups(s: Store, r: Store, rows: seq<Membership>, g: GroupId)
    requires r == s.(groups := r.groups)
    ensures Entrants(r, rows, g) == Entrants(s, rows, g)
  {
    if |rows| > 0 {
      EntrantsIgnoreGroups(s, r, rows[1..], g);
    }
  }

  /** Choosing representatives keeps the grouping a partition of the
      faces into the components of the folded pairs. */
  lemma FindBestFacesKeepsClusters(s: Store)
    requires Clustering.Clustered(s)
    ensures Clustering.Clustered(FindBestFaces(s))
  {
    var r := FindBestFaces(s);
    assert r.members == s.members && r.pairs == s.pairs;
    assert Clustering.FoldedEdges(r) == Clustering.FoldedEdges(s);
    assert Clustering.Partitioned(r);
    forall x, y
      ensures Clustering.Together(r, x, y) <==> Graph.Linked(Clustering.FoldedEdges(r), x, y)
    {
      assert Clustering.GroupOfFace(r, x) == Clustering.GroupOfFace(s, x);
      assert Clustering.GroupOfFace(r, y) == Clustering.GroupOfFace(s, y);
    }
  }

  /** A group of two faces on one 100 by 100 image: a 10 by 20 box scores
      2 and a 20 by 40 box scores 8, so the second face is chosen although
      its membership row comes later. */
  lemma LargerFaceWins()
    ensures FindBestFaces(TwoFaceStore()).groups[1].bestFace == Some(2)
  {
    var s := TwoFaceStore();
    assert FaceScore(s, 1) == Some(2) by {
      DivAtMost(2000, 100, 20);
      DivAtMost(20, 100, 1);
    }
    assert FaceScore(s, 2) == Some(8) by {
      DivAtMost(80000, 100, 800);
      DivAtMost(800, 100, 8);
    }
    var es := Entrants(s, s.members, 1);
    assert es == [Entrant(1, Some(2)), Entrant(2, Some(8))];
    assert Best(es) == 1;
  }

  /** Each division truncates: a face covering less than 1% of its image
      scores 0, however large it is. */
  lemma TinyFaceScoresZero(face: Face, img: Image)
    requires img.width.Some? && img.height.Some?
    requires 0 < img.width.value && 0 < img.height.value
    requires 0 <= face.box.w && 0 <= face.box.h
    requires 100 * face.box.w * face.box.h < img.width.value * img.height.value
    ensures Score(face, img) == Some(0)
  {
    var width, height := img.width.value, img.height.value;
    var a := 100 * face.box.w * face.box.h;
    assert 0 <= a by {
      MulMono(0, 100 * face.box.w, face.box.h);
    }
    DivAtMost(a, width, height);
    var q := a / width;
    assert q < height by {
      DivBounds(a, width);
      if q >= height {
        MulMono(height, q, width);
      }
    }
    DivAtMost(q, height, 1);
    assert q / height == 0;
  }

  /** Two faces under 1% of a 4000x3000 image, 100x100 and 200x200, both
      score 0. The tie goes to the first membership row, so the smaller
      face is chosen. */
  lemma SmallFacesTie()
    ensures var s := SmallFaceStore();
            && FaceScore(s, 1) == Some(0) && FaceScore(s, 2) == Some(0)
            && FindBestFaces(s).groups[7].bestFace == Some(1)
  {
    var s := SmallFaceStore();
    TinyFaceScoresZero(s.faces[1], s.images[1]);
    TinyFaceScoresZero(s.faces[2], s.images[1]);
    var es := Entrants(s, s.members, 7);
    assert es == [Entrant(1, Some(0)), Entrant(2, Some(0))];
    assert Best(es) == 0;
  }

  function SmallFaceStore(): Store
  {
    Store(
      map[1 := Image("/photos/b.jpg", "b.jpg", Some("md5"), Some("thumb"), Some(2), Some(4000), Some(3000))],
      map[1 := Face(1, Box(0, 0, 100, 100), []), 2 := Face(1, Box(500, 500, 200, 200), [])],
      map[],
      map[7 := Group(None, None)],
      [Membership(1, 7), Membership(2, 7)])
  }

  function TwoFaceStore(): Store
  {
    Store(
      map[1 := Image("/photos/a.jpg", "a.jpg", Some("md5"), Some("thumb"), Some(2), Some(100), Some(100))],
      map[1 := Face(1, Box(0, 0, 10, 20), []), 2 := Face(1, Box(5, 5, 20, 40), [])],
      map[],
      map[1 := Group(None, None)],
      [Membership(1, 1), Membership(2, 1)])
  }
}

=== FILE: store.dfy ===
/** The persistent store of the face-grouping pipeline.

    The five SQLite tables are modelled as one immutable value. Tables with an
    integer primary key become maps keyed by rowid. `pairs` becomes a map keyed
    by `(face1, face2)`, because the unique index on those two columns makes
    them a key. `faces2groups` has no key at all, so it stays a sequence of rows.
    Every stage of the pipeline is a function from one store value to the next.
 */
module Store {

  datatype Option<+T> = None | Some(value: T)

  type ImageId = int
  type FaceId = int
  type GroupId = int

  /** A row of `pairs` is identified by its `(face1, face2)` columns. */
  type PairKey = (FaceId, FaceId)

  /** The detector's feature vector. Only the distance engine reads it. */
  type Encoding = seq<real>

  /** A row of `images`. The nullable columns are `Option`s. */
  datatype Image = Image(
    fullPath: string,
    filename: string,
    md5: Option<string>,
    thumbnail: Option<string>,
    faceCount: Option<int>,
    width: Option<int>,
    height: Option<int>)

  /** A face bounding box in pixels, relative to its image. */
  datatype Box = Box(x: int, y: int, w: int, h: int)

  /** A row of `faces`. */
  datatype Face = Face(image: ImageId, box: Box, encoding: Encoding)

  /** A row of `pairs`. `distance` is NULL until the distance engine sets it. */
  datatype Pair = Pair(distance: Option<real>, grouped: bool)

  /** A row of `groups`. */
  datatype Group = Group(name: Option<string>, bestFace: Option<FaceId>)

  /** A row of `faces2groups`. */
  datatype Membership = Membership(face: FaceId, group: GroupId)

  datatype Store = Store(
    images: map<ImageId, Image>,
    faces: map<FaceId, Face>,
    pairs: map<PairKey, Pair>,
    groups: map<GroupId, Group>,
    members: seq<Membership>)

  /** What one call of a chunked stage returns: the new store plus the two
      counts of its result tuple. */
  datatype Round = Round(store: Store, processed: int, count: int)

  /** A store with every table empty. This is the state right after `init`. */
  const EmptyStore := Store(map[], map[], map[], map[], [])

  function Min(a: int, b: int): int
  {
    if a <= b then a else b
  }

  predicate Distinct<T(==)>(xs: seq<T>)
  {
    forall i, j :: 0 <= i < j < |xs| ==> xs[i] != xs[j]
  }

  lemma {:induction false} DistinctCardinality<T>(xs: seq<T>)
    requires Distinct(xs)
    ensures |set x | x in xs| == |xs|
  {
    if |xs| > 0 {
      DistinctCardinality(xs[1..]);
      assert (set x | x in xs) == (set x | x in xs[1..]) + {xs[0]};
      assert xs[0] !in xs[1..] by {
        forall i | 0 <= i < |xs[1..]|
          ensures xs[1..][i] != xs[0]
        {
          assert xs[1..][i] == xs[i + 1];
        }
      }
    }
  }

  /** Removing the distinct elements of `xs` from a set that contains all of
      them shrinks it by exactly `|xs|`. */
  lemma RemoveDistinct<T>(big: set<T>, xs: seq<T>)
    requires Distinct(xs)
    requires forall i :: 0 <= i < |xs| ==> xs[i] in big
    ensures |big - (set x | x in xs)| == |big| - |xs|
  {
    var small := set x | x in xs;
    DistinctCardinality(xs);
    assert small <= big;
    assert big == (big - small) + small;
  }

  /** Some element of a non-empty set. */
  lemma PickOne<T>(xs: set<T>) returns (x: T)
    requires xs != {}
    ensures x in xs
  {
    x :| x in xs;
  }

  /** `m` is the largest element of `ids`. */
  predicate IsLargest(ids: set<int>, m: int)
  {
    m in ids && forall k :: k in ids ==> k <= m
  }

  lemma {:induction false} LargestExists(ids: set<int>)
    requires ids != {}
    ensures exists m :: IsLargest(ids, m)
  {
    var x := PickOne(ids);
    if ids - {x} != {} {
      LargestExists(ids - {x});
      var m :| IsLargest(ids - {x}, m);
      forall k | k in ids
        ensures k <= m || k <= x
      {
        if k != x {
          assert k in ids - {x};
        }
      }
      if x <= m {
        assert IsLargest(ids, m);
      } else {
        assert IsLargest(ids, x);
      }
    } else {
      assert ids == {x};
      assert IsLargest(ids, x);
    }
  }

  /** The rowid SQLite gives a row inserted with a NULL integer primary key:
      one more than the largest rowid in the table, or 1 when it is empty. */
  function NextRowId(ids: set<int>): (r: int)
    ensures r !in ids
    ensures forall k :: k in ids ==> k < r
    ensures ids == {} ==> r == 1
    ensures ids != {} ==> r - 1 in ids
  {
    if ids == {} then 1
    else
      LargestExists(ids);
      var m :| IsLargest(ids, m);
      m + 1
  }

  /** Without AUTOINCREMENT the next rowid is one above the largest
      remaining rowid. So a deleted largest rowid comes back at the next
      insert when the rowid just below it is still present. */
  lemma DeletedLargestReused(ids: set<int>, m: int)
    requires IsLargest(ids, m) && (m - 1 in ids || ids == {1})
    ensures NextRowId(ids - {m}) == m
  {
    if ids != {1} {
      var rest := ids - {m};
      assert m - 1 in rest;
      assert forall k :: k in rest ==> k <= m - 1;
      assert NextRowId(rest) - 1 in rest;
    }
  }
}
